=== FILE: README.md ===
# YouTube video finder — a Dafny model of its decision logic

The system takes a free-text query, fetches candidate videos from the YouTube
Data API, keeps and orders them with a retrieval-time priority, and picks one
best video with a scoring heuristic (or, alternatively, by asking a language
model). The frontend turns a video URL back into an 11-character id for its
embedded player. This project models every rule in that chain that turns data
into a decision, as pure Dafny functions over immutable records, and proves
what each rule promises.

Modules (one per source concern):

- `Wrappers` (`wrappers.dfy`): `Option` and `Result`.
- `Text` (`text.dfy`): ASCII word runs (`re.findall(r'\w+', s)`), `lower()`,
  the token sets of the query and of titles and descriptions, and decimal digit strings.
- `StableSort` (`stable_sort.dfy`): `list.sort(key=…, reverse=True)` for an
  integer key. Its contract says the output's keys never increase and that,
  for every key, the output lists exactly the input elements with that key, in input order.
- `Videos` (`videos.dfy`): the video record and the abstract publish-date
  outcome `Absent | Unusable | AgeDays(n)`.
- `Ranking` (`ranking.dfy`): `analyze_titles` of `backend/analyze_titles.py`.
- `Retrieval` (`retrieval.dfy`): the pure parts of `search_youtube_videos`
  of `backend/youtube_search.py`, over already-decoded item records.
- `LlmAnalyzer` (`llm_analyzer.dfy`): `analyze_titles` of
  `backend/llm_analyzer.py`, with the model's reply as an input.
- `VideoList` (`video_list.dfy`): `getYoutubeId` of `frontend/src/components/VideoList.js`.
- `Pipeline` (`pipeline.dfy`): facts that connect the backend and the frontend.

Details the model takes from the code, including one where the code and its own
comments disagree:

- The comment at `backend/analyze_titles.py:69` calls the priority share "0-30
  points max", which would make the retrieval priority range over 0..3. The code
  of `backend/youtube_search.py:115-131` gives up to 3 for duration and up to 2
  for recency, so the priority ranges over 0..5 and the share over 0..50.
- The duration bands of `backend/analyze_titles.py:58-62` and
  `backend/youtube_search.py:116-120` share their endpoints, 240 and 1500
  seconds, just as their comments' ranges ("4-25", "2-4", "25-30 minutes") share
  4 and 25 minutes. The code's `<=` tests put each shared endpoint into the band
  tested first.
- Equal (priority, score) keys are settled by input order, because Python's sort stays stable under `reverse=True`.
- The duration pattern has no hours group, so "PT1H5M" reads as 0 seconds.

## Model

| member | source | states |
|---|---|---|
| Text.WordRunsCharacterised | backend/analyze_titles.py:36 | a string is one of the word runs exactly when it fills a maximal stretch of word characters of the text |
| Text.WordRuns | backend/analyze_titles.py:36 | every word run is non-empty and made only of word characters |
| Text.TokensCharacterised | backend/analyze_titles.py:35-36 | a string is a title/description token exactly when it is longer than two characters and fills a maximal stretch of word characters of the lower-cased text |
| Text.QueryTokensCharacterised | backend/analyze_titles.py:25 | a string is a query token exactly when it is longer than two characters and fills a maximal stretch of word characters of the lower-cased query |
| Text.Tokens | backend/analyze_titles.py:35-36 | every title/description token is longer than two characters, made of word characters and already lower-case |
| Text.QueryTokens | backend/analyze_titles.py:25 | every query token is longer than two characters and made of word characters |
| Text.QueryTokensAgreeWithTokens | backend/analyze_titles.py:25 | filtering by length before lower-casing (query) and after (titles) yields the same token set |
| Text.NoLongRunNoTokens | backend/analyze_titles.py:25 | text without three consecutive word characters, the empty string included, has no tokens |
| Text.DecimalRoundTrip | backend/llm_analyzer.py:16-20 | reading back a number printed in decimal gives the number |
| StableSort.Sort | backend/youtube_search.py:151 | the sorted list is a permutation of the input |
| StableSort.SortIsStableSortDesc | backend/youtube_search.py:151 | the sorted list has non-increasing keys and keeps elements with equal keys in input order |
| StableSort.SortHead | backend/youtube_search.py:151 | the head of the sorted list has the largest key of the input |
| Ranking.TitlePoints | backend/analyze_titles.py:37-38 | the title part is 5 points per matching word up to 8 words, and 40 (its cap) exactly from 8 matching words on |
| Ranking.TitlePointsMonotone | backend/analyze_titles.py:38 | more matching title words never lower the title part |
| Ranking.DescriptionPoints | backend/analyze_titles.py:74-75 | the description part is 2 points per matching word up to 5 words, and 10 (its cap) exactly from 5 matching words on |
| Ranking.DescriptionPointsMonotone | backend/analyze_titles.py:75 | more matching description words never lower the description part |
| Ranking.RecencyPoints | backend/analyze_titles.py:41-53 | 30 for an age of at most 7 days, negative ages included; 20 up to 30 days; 10 up to 90; 0 beyond, or for an absent or unusable date |
| Ranking.RecencyNonIncreasing | backend/analyze_titles.py:46-51 | an older video never earns more recency points |
| Ranking.DurationPoints | backend/analyze_titles.py:56-65 | 0 when absent; 20 for 240..1500; 15 for 120..239; 10 for 1501..1800; 5 for every other duration |
| Ranking.ThumbnailAddsFive | backend/analyze_titles.py:77-79 | a non-empty thumbnail URL adds exactly 5 to the score the same record would have without it |
| Ranking.Score | backend/analyze_titles.py:32-79 | the score lies between 10·priority and 105 + 10·priority, and is non-negative for a non-negative priority |
| Ranking.EmptyQueryScoresMetadataOnly | backend/analyze_titles.py:37-75 | with no query tokens the score is recency + duration + 10·priority + thumbnail |
| Ranking.ShortQueryScoresMetadataOnly | backend/analyze_titles.py:25 | a query without a word run longer than two scores as the empty query |
| Ranking.BareCandidateScore | backend/analyze_titles.py:41-79 | a candidate without date, duration or thumbnail scores its relevance plus 10·priority, never below 0 |
| Ranking.FirstBest | backend/analyze_titles.py:88-91 | no key outranks the chosen position and it strictly outranks every earlier one |
| Ranking.FirstBestUnique | backend/analyze_titles.py:88-91 | at most one position has that property, so the winner is determined |
| Ranking.AnalyzeTitles | backend/analyze_titles.py:21-93 | None exactly for an empty list; otherwise the first-best candidate by (priority, score), with its score attached |
| Ranking.WinnerIsFirstBest | backend/analyze_titles.py:88-93 | any first-best candidate is the one returned |
| Ranking.OnlyScoreChanges | backend/analyze_titles.py:91-93 | the result is an input record with only its score field changed, set to that record's score |
| Ranking.StrictlyHighestPriorityWins | backend/analyze_titles.py:88 | a candidate whose priority beats all others wins whatever its score |
| Ranking.ScoreBreaksPriorityTie | backend/analyze_titles.py:88 | when all candidates share one priority, the strictly highest score wins |
| Ranking.ExactTieFirstWins | backend/analyze_titles.py:88-91 | when all keys are equal the first candidate wins |
| Ranking.StableSortHeadIsFirstBest | backend/analyze_titles.py:88-91 | the head of any stable descending order of the keys is the first-best position |
| Retrieval.OptionalGroup | backend/youtube_search.py:94-97 | an optional `(\d+)X` group consumes digits and the designator and yields their value, or consumes nothing and yields 0; it is found exactly when a non-empty digit run is followed by the designator |
| Retrieval.GroupOfDigits | backend/youtube_search.py:94-97 | any non-empty digit string followed by the designator, leading zeros included ("05M"), is read as one group worth its value |
| Retrieval.ParseDuration | backend/youtube_search.py:92-98 | None exactly for an absent value or one not starting with "PT"; otherwise a non-negative number of seconds |
| Retrieval.ParseFormatted | backend/youtube_search.py:94-98 | "PT<m>M<s>S" followed by anything reads as 60·m + s |
| Retrieval.ParseMinutesOnly | backend/youtube_search.py:94-98 | "PT<m>M" followed by a non-digit reads as 60·m |
| Retrieval.ParseSecondsOnly | backend/youtube_search.py:94-98 | "PT<s>S" reads as s |
| Retrieval.HoursReadAsZero | backend/youtube_search.py:94-98 | "PT<h>H…" reads as 0 whatever follows |
| Retrieval.DurationPriority | backend/youtube_search.py:115-121 | 3 for 240..1500, 2 for 120..239, 1 for 1501..1800, 0 otherwise or when absent |
| Retrieval.RecencyBonus | backend/youtube_search.py:124-131 | +2 for an age of at most 7 days, +1 up to 30, nothing for an absent or unusable date |
| Retrieval.Priority | backend/youtube_search.py:112-131 | the priority is within 0..5; it is the duration share when no usable date exists, and the duration share plus 2 for an age of at most 7 days, plus 1 up to 30 days, otherwise |
| Retrieval.AdmitWithoutDateNeedsDuration | backend/youtube_search.py:137-146 | without a usable date a kept record has a duration of 120..1800 seconds, and of 120..1500 when the date is absent |
| Retrieval.AdmissionMonotone | backend/youtube_search.py:124-146 | a usable date always keeps; an unusable one keeps exactly from priority 1; no date keeps exactly from priority 2 |
| Retrieval.Candidate | backend/youtube_search.py:79-146 | the record carries the snippet's title, description, thumbnail URL, channel name and publish date, the watch url and the parsed duration, and its stored priority is the retrieval priority of that duration and date |
| Retrieval.Admitted | backend/youtube_search.py:76-148 | the first pass keeps at most one record per item, each with priority within 0..5 |
| Retrieval.AdmittedConcat | backend/youtube_search.py:76-148 | the first pass treats items independently: it distributes over concatenation |
| Retrieval.UnusableItemSkipped | backend/youtube_search.py:147-148 | an item missing id or snippet is skipped and the items after it are still processed |
| Retrieval.AdmittedMembers | backend/youtube_search.py:124-146 | a record is kept exactly when it was built from an item that passes admission |
| Retrieval.FallbackMembers | backend/youtube_search.py:156-167 | a record is in the fallback list exactly when it was built, with the item's title, its watch url and priority 0, from an item that has an id and a snippet |
| Retrieval.FallbackConcat | backend/youtube_search.py:156-169 | the fallback pass treats items independently: it distributes over concatenation |
| Retrieval.FallbackRecord | backend/youtube_search.py:158-167 | a fallback record holds only the item's title, its watch url and priority 0: no description, thumbnail, channel, duration or date |
| Retrieval.Fallback | backend/youtube_search.py:154-169 | the fallback list has at most one priority-0 record per item |
| Retrieval.SearchResults | backend/youtube_search.py:150-174 | the result holds at most 20 records |
| Retrieval.ResultsWhenAdmitted | backend/youtube_search.py:150-174 | with something kept, the result is a prefix of the stable sort by non-increasing priority of the kept records |
| Retrieval.ResultsWhenNothingAdmitted | backend/youtube_search.py:154-174 | with nothing kept, the result is the first min(20, n) of the n fallback records stably sorted by non-increasing title length, all with priority 0 |
| Retrieval.AsciiOnly | backend/youtube_search.py:185 | the output holds exactly the input characters below 128, with their multiplicities, and none other |
| Retrieval.AsciiOnlyConcat | backend/youtube_search.py:185 | the filter works character by character, so input order is kept |
| Retrieval.AsciiOnlyKeepsAscii | backend/youtube_search.py:190 | ASCII text passes unchanged |
| Retrieval.ErrorText | backend/youtube_search.py:183-191 | an outer handler's error text is its label followed by the message with every non-ASCII character dropped, so it is pure ASCII |
| Retrieval.HandlerErrorTexts | backend/youtube_search.py:183-191 | both handler labels are ASCII, so each handler's error text is its own label followed by the filtered message |
| Retrieval.AsciiMessageKept | backend/youtube_search.py:184-191 | an ASCII exception message appears in the error text unchanged after the label |
| Retrieval.SearchVideos | backend/youtube_search.py:9-10 | an empty query is refused with its message; otherwise at most 20 records come back |
| LlmAnalyzer.NumberedLines | backend/llm_analyzer.py:16 | line i reads "<first + i>. <title i>", one line per title, in input order |
| LlmAnalyzer.SplitJoin | backend/llm_analyzer.py:16 | splitting the newline-joined lines gives the lines back when none holds a newline |
| LlmAnalyzer.Prompt | backend/llm_analyzer.py:12-17 | the prompt opens with the header that names the query and ends with the reply-only-with-a-number instruction |
| LlmAnalyzer.SplitConcat | backend/llm_analyzer.py:16 | splitting at newlines distributes over joining two texts with a newline |
| LlmAnalyzer.PromptLines | backend/llm_analyzer.py:12-17 | for newline-free titles, the prompt's lines are an empty line, the query lines, "Here are the titles:", one numbered line per title in order, and the instruction line |
| LlmAnalyzer.PromptListsTitlesInOrder | backend/llm_analyzer.py:12-17 | the prompt has one line per video plus the fixed lines, and the line after the header and the k-1 earlier titles reads "k. <title of video k>" |
| LlmAnalyzer.StripLeading | backend/llm_analyzer.py:20 | the result is a suffix of the reply, every dropped character is whitespace, and it does not start with whitespace |
| LlmAnalyzer.StripTrailing | backend/llm_analyzer.py:20 | the result is a prefix of the reply, every dropped character is whitespace, and it does not end with whitespace |
| LlmAnalyzer.Strip | backend/llm_analyzer.py:20 | the stripped reply is no longer than the reply and neither starts nor ends with whitespace |
| LlmAnalyzer.StripIsSlice | backend/llm_analyzer.py:20 | the stripped reply is a contiguous slice of the reply, and everything cut off before and after it is whitespace |
| LlmAnalyzer.DigitsOf | backend/llm_analyzer.py:20 | only digits are kept, never more characters than the reply has |
| LlmAnalyzer.DigitsOfConcat | backend/llm_analyzer.py:20 | the digit filter keeps order: it distributes over concatenation |
| LlmAnalyzer.DigitsIgnoreStrip | backend/llm_analyzer.py:20 | stripping whitespace never changes the digits of the reply |
| LlmAnalyzer.ReplyIndex | backend/llm_analyzer.py:20 | no index exactly when the reply has no digit; an index is never below -1 |
| LlmAnalyzer.ReplyIndexOfDigits | backend/llm_analyzer.py:20 | the index is the value of all the reply's digits minus 1 |
| LlmAnalyzer.AnalyzeTitles | backend/llm_analyzer.py:8-23 | None exactly for an empty list; otherwise always one of the videos, the first one when the call failed or the reply has no digit |
| LlmAnalyzer.ReplyNumberSelectsListedVideo | backend/llm_analyzer.py:16-21 | a reply holding the number printed before a title, amid non-digit text, selects that title's video |
| LlmAnalyzer.IndexInRangeSelects | backend/llm_analyzer.py:20-21 | a reply whose digits give an index within the list selects the video at that index |
| LlmAnalyzer.OutOfRangeIndexFallsBack | backend/llm_analyzer.py:20-23 | a reply whose digits give an index outside the list ("Video 7" for three videos, "0", "2 or 3" for fewer than 23) selects the first video |
| LlmAnalyzer.OutOfRangeFallsBack | backend/llm_analyzer.py:21 | a reply of 0 or of a number beyond the list selects the first video |
| LlmAnalyzer.AllDigitsConcatenate | backend/llm_analyzer.py:20 | the reply "2 or 3" yields index 22 |
| VideoList.FirstMarkerMatch | frontend/src/components/VideoList.js:7 | a capture is always 11 characters of [A-Za-z0-9_-] |
| VideoList.FirstMarkerMatchCharacterised | frontend/src/components/VideoList.js:7 | a capture at a position exists exactly when some marker there is followed by 11 id characters, and it is those characters |
| VideoList.ScanFrom | frontend/src/components/VideoList.js:7 | the scan returns the capture at the first matching position, or nothing when no position matches |
| VideoList.ScanMatchesSpec | frontend/src/components/VideoList.js:7 | scanning from the start yields the id after the marker of the leftmost match |
| VideoList.GetYoutubeId | frontend/src/components/VideoList.js:5-9 | null exactly when no marker is followed by 11 id characters; otherwise the 11 id characters after the marker of the leftmost match |
| VideoList.MarkersExclusive | frontend/src/components/VideoList.js:7 | no two markers can occur at one position |
| VideoList.NoMarkerNoId | frontend/src/components/VideoList.js:7-8 | a URL containing no marker yields null |
| VideoList.CaptureIgnoresTail | frontend/src/components/VideoList.js:7 | text appended after a match does not change its capture; only the first 11 id characters are taken |
| Pipeline.NoMarkerBeforeId | frontend/src/components/VideoList.js:7 | no marker starts in a watch URL before its "v=" |
| Pipeline.WatchUrlYieldsId | frontend/src/components/VideoList.js:7-8 | the watch URL of an 11-character id, followed by anything, yields that id |
| Pipeline.AdmittedRecordOpensById | backend/youtube_search.py:84 | every record the search builds, kept or fallback, opens in the player by its own id |
| Pipeline.FallbackScoresTitleOnly | backend/youtube_search.py:163-167 | a fallback record earns title points from the ranking and nothing else |
| Pipeline.DurationPointsTrackPriority | backend/analyze_titles.py:56-65 | a known duration earns 5 ranking points plus 5 per unit of retrieval duration priority |
| Pipeline.RecencyPointsTrackBonus | backend/analyze_titles.py:41-51 | up to 30 days, recency earns 10 ranking points plus 10 per unit of retrieval recency bonus |

## Left out

- HTTP and environment: the API-key lookup, both `requests` calls, status and JSON error handling, and the error records of `backend/youtube_search.py:13-69, 176-181`. Only the ASCII filter and the message texts of the two outer handlers are modelled. The whole Flask route and model setup of `backend/app.py` are left out for the same reason.
- The item list comes from the details response. The search-response step (`item['id']['videoId']`, lines 43-50) is left out, because it only feeds the details request.
- Date parsing and the wall clock. A record's date is the outcome `Absent | Unusable | AgeDays(n)`, and both backend functions read that same outcome. Python raises `TypeError` when it subtracts an offset-aware date from the naive `utcnow()`, so a 'Z' timestamp takes the unusable branch in the code. The model keeps the outcome abstract instead of fixing either behaviour.
- Unicode. `\w`, `lower()`, `str.isdigit`, `int()`, `strip()` and the `\d` of the duration pattern are modelled on ASCII only. Non-ASCII digits, which `isdigit` accepts and `int()` may reject, and the Unicode digits that `\d` matches and `int()` reads, are not modelled.
- The Gemini call is a reply parameter, with `None` for any exception. Prompt semantics are not modelled.
- The sort algorithm. Timsort is replaced by a stable insertion sort that meets the same contract.
- Exceptions other than `KeyError` inside the item loop are not modelled, because the item fields are typed. A snippet that is not a dictionary (`snippet.get`, line 83) or a truthy duration that is not a string (`re.match`, line 94) would reach the handler at line 183 and replace the whole result with an error record. A non-string `publishedAt` is different: its `AttributeError` is caught at line 137 and takes the unusable-date branch, which the model covers.
- A record without a `title` key. `backend/llm_analyzer.py:11` would raise `KeyError` on it. Every modelled record carries a title, with the empty string for a missing one.
- Aliasing. `best_video` is the same dictionary as the list entry, so the caller's list also gains the score. The model returns an updated copy.
- Query validation beyond the empty-string check, and the React components (state, axios, speech input, theme) of the frontend.

=== FILE: llm_analyzer.dfy ===
/**
 * The alternative selector of `backend/llm_analyzer.py`: it numbers the
 * candidate titles in a prompt, reads every digit of the model's reply as one
 * 1-based number, and falls back to the first candidate whenever that number
 * is missing or out of range or the call failed.  The model's reply is an
 * input: `None` stands for a call that raised.
 */
module LlmAnalyzer {
  import opened Wrappers
  import opened Text
  import opened Videos

  // ---------------------------------------------------------------------------
  // The prompt

  /** The prompt's second line, which quotes the query. */
  function IntroLine(query: string): string {
    "You are an expert at picking the most relevant YouTube video for a user's search query. The query is: '"
    + query + "'."
  }

  const TitlesLine: string := "Here are the titles:"
  const FooterLine: string := "Reply ONLY with the number of the best video."

  /** The f-string before the numbered titles: an empty first line, the intro, the titles line. */
  function PromptHeader(query: string): string {
    "\n" + IntroLine(query) + "\n" + TitlesLine + "\n"
  }

  const PromptFooter: string := "\n" + FooterLine

  /** One prompt line: "<k>. <title>". */
  function NumberedLine(k: nat, title: string): string {
    Decimal(k) + ". " + title
  }

  /** The titles numbered from `first` upwards, in input order. */
  function NumberedLines(titles: seq<string>, first: nat): (lines: seq<string>)
    ensures |lines| == |titles|
    ensures forall i :: 0 <= i < |titles| ==> lines[i] == NumberedLine(first + i, titles[i])
  {
    if titles == [] then []
    else [NumberedLine(first, titles[0])] + NumberedLines(titles[1..], first + 1)
  }

  /** `'\n'.join(lines)`. */
  function JoinLines(lines: seq<string>): string {
    if lines == [] then ""
    else if |lines| == 1 then lines[0]
    else lines[0] + "\n" + JoinLines(lines[1..])
  }

  /** `s.split('\n')`: the pieces between newline characters. */
  function SplitLines(s: string): (pieces: seq<string>)
    ensures |pieces| > 0
    ensures forall p :: p in pieces ==> '\n' !in p
    decreases |s|
  {
    if '\n' !in s then [s]
    else
      var k := FirstNewline(s);
      [s[..k]] + SplitLines(s[k + 1..])
  }

  function FirstNewline(s: string): (k: nat)
    requires '\n' in s
    ensures k < |s| && s[k] == '\n' && '\n' !in s[..k]
  {
    if s[0] == '\n' then 0
    else
      var k := 1 + FirstNewline(s[1..]);
      assert s[..k] == [s[0]] + s[1..][..k - 1];
      k
  }

  lemma SplitAfterLine(line: string, rest: string)
    requires '\n' !in line
    ensures SplitLines(line + "\n" + rest) == [line] + SplitLines(rest)
  {
    var s := line + "\n" + rest;
    assert s[|line|] == '\n';
    var k := FirstNewline(s);
    assert forall j :: 0 <= j < |line| ==> s[j] == line[j];
    assert k == |line|;
    assert s[..k] == line;
    assert s[k + 1..] == rest;
  }

  /** Splitting the joined lines gives the lines back when none holds a newline. */
  lemma {:induction false} SplitJoin(lines: seq<string>)
    requires lines != []
    requires forall l :: l in lines ==> '\n' !in l
    ensures SplitLines(JoinLines(lines)) == lines
  {
    if |lines| > 1 {
      SplitJoin(lines[1..]);
      SplitAfterLine(lines[0], JoinLines(lines[1..]));
      assert [lines[0]] + lines[1..] == lines;
    }
  }

  function Titles(videos: seq<Video>): (titles: seq<string>)
    ensures |titles| == |videos|
    ensures forall i :: 0 <= i < |videos| ==> titles[i] == videos[i].title
  {
    seq(|videos|, i requires 0 <= i < |videos| => videos[i].title)
  }

  /** The full prompt: header with the query, numbered titles from 1, footer. */
  function Prompt(query: string, videos: seq<Video>): (p: string)
    ensures |PromptHeader(query)| + |PromptFooter| <= |p|
    ensures p[..|PromptHeader(query)|] == PromptHeader(query)
    ensures p[|p| - |FooterLine|..] == FooterLine
  {
    PromptHeader(query) + JoinLines(NumberedLines(Titles(videos), 1)) + PromptFooter
  }

  lemma LineWithoutNewline(k: nat, title: string)
    requires '\n' !in title
    ensures '\n' !in NumberedLine(k, title)
  {
    var d := Decimal(k);
    var l := NumberedLine(k, title);
    assert forall p :: 0 <= p < |d| ==> l[p] == d[p] && IsDigit(d[p]);
    assert forall p :: |d| + 2 <= p < |l| ==> l[p] == title[p - |d| - 2];
  }

  /** A newline between two texts separates their pieces: splitting distributes over it. */
  lemma {:induction false} SplitConcat(a: string, b: string)
    ensures SplitLines(a + "\n" + b) == SplitLines(a) + SplitLines(b)
    decreases |a|
  {
    if '\n' !in a {
      SplitAfterLine(a, b);
    } else {
      var k := FirstNewline(a);
      var rest := a[k + 1..];
      FirstNewlineOfConcat(a, b);
      SplitConcat(rest, b);
      ConsAssoc(a[..k], SplitLines(rest), SplitLines(b));
    }
  }

  lemma ConsAssoc<T>(x: T, a: seq<T>, b: seq<T>)
    ensures [x] + (a + b) == [x] + a + b
  {
  }

  /** The text before the first newline of `a` also comes first in `a + "\n" + b`. */
  lemma FirstNewlineOfConcat(a: string, b: string)
    requires '\n' in a
    ensures var s, k := a + "\n" + b, FirstNewline(a);
            && '\n' in s && FirstNewline(s) == k
            && SplitLines(a) == [a[..k]] + SplitLines(a[k + 1..])
            && SplitLines(s) == [a[..k]] + SplitLines(a[k + 1..] + "\n" + b)
  {
    var s := a + "\n" + b;
    var k := FirstNewline(a);
    assert s[k] == '\n';
    assert s[..k] == a[..k];
    FirstNewlineIsFirst(s, k);
    assert s[k + 1..] == a[k + 1..] + "\n" + b;
  }

  lemma FirstNewlineIsFirst(s: string, k: nat)
    requires k < |s| && s[k] == '\n' && '\n' !in s[..k]
    ensures FirstNewline(s) == k
  {
    var f := FirstNewline(s);
    assert forall j :: 0 <= j < k ==> s[..k][j] == s[j];
    assert forall j :: 0 <= j < f ==> s[..f][j] == s[j];
  }

  lemma FixedLinesWithoutNewline()
    ensures '\n' !in TitlesLine && '\n' !in FooterLine
  {
    var a := "Reply ONLY with the ";
    var b := "number of the best video.";
    assert '\n' !in a && '\n' !in b;
    assert FooterLine == a + b;
  }

  /**
   * Read line by line, the prompt is an empty line, the intro quoting the
   * query (one line unless the query holds newlines), the titles line, the
   * numbered titles in input order, and the closing instruction, provided no
   * title contains a newline.
   */
  lemma PromptLines(query: string, videos: seq<Video>)
    requires videos != []
    requires forall i :: 0 <= i < |videos| ==> '\n' !in videos[i].title
    ensures SplitLines(Prompt(query, videos))
            == [""] + SplitLines(IntroLine(query)) + [TitlesLine] + NumberedLines(Titles(videos), 1) + [FooterLine]
  {
    var lines := NumberedLines(Titles(videos), 1);
    forall l | l in lines
      ensures '\n' !in l
    {
      var i :| 0 <= i < |lines| && lines[i] == l;
      LineWithoutNewline(1 + i, videos[i].title);
    }
    PromptPieces(query, lines);
  }

  /** The prompt line after the intro and titles line numbered k reads "k. <title of videos[k-1]>". */
  lemma PromptListsTitlesInOrder(query: string, videos: seq<Video>, k: nat)
    requires 1 <= k <= |videos|
    requires forall i :: 0 <= i < |videos| ==> '\n' !in videos[i].title
    ensures var n := |SplitLines(IntroLine(query))|;
            && |SplitLines(Prompt(query, videos))| == n + |videos| + 3
            && SplitLines(Prompt(query, videos))[n + 1 + k] == Decimal(k) + ". " + videos[k - 1].title
  {
    PromptLines(query, videos);
    NumberedLineAt(SplitLines(Prompt(query, videos)), SplitLines(IntroLine(query)), videos, k);
  }

  lemma NumberedLineAt(all: seq<string>, intro: seq<string>, videos: seq<Video>, k: nat)
    requires 1 <= k <= |videos|
    requires all == [""] + intro + [TitlesLine] + NumberedLines(Titles(videos), 1) + [FooterLine]
    ensures |all| == |intro| + |videos| + 3
    ensures all[|intro| + 1 + k] == Decimal(k) + ". " + videos[k - 1].title
  {
    var lines := NumberedLines(Titles(videos), 1);
    var pre := [""] + intro + [TitlesLine];
    IndexAfterPrefix(pre, lines, [FooterLine], k - 1);
    assert lines[k - 1] == NumberedLine(k, videos[k - 1].title);
  }

  lemma IndexAfterPrefix<T>(pre: seq<T>, mid: seq<T>, post: seq<T>, i: nat)
    requires i < |mid|
    ensures |pre + mid + post| == |pre| + |mid| + |post|
    ensures (pre + mid + post)[|pre| + i] == mid[i]
  {
  }

  lemma PromptPieces(query: string, lines: seq<string>)
    requires lines != []
    requires forall l :: l in lines ==> '\n' !in l
    ensures SplitLines(PromptHeader(query) + JoinLines(lines) + PromptFooter)
            == [""] + SplitLines(IntroLine(query)) + [TitlesLine] + lines + [FooterLine]
  {
    FixedLinesWithoutNewline();
    PromptShape(query, JoinLines(lines));
    SplitFramed(IntroLine(query), TitlesLine, lines, FooterLine);
  }

  /** The line structure of any text shaped like the prompt. */
  lemma SplitFramed(intro: string, heading: string, lines: seq<string>, footer: string)
    requires lines != []
    requires forall l :: l in lines ==> '\n' !in l
    requires '\n' !in heading && '\n' !in footer
    ensures SplitLines("\n" + (intro + "\n" + (heading + "\n" + (JoinLines(lines) + "\n" + footer))))
            == [""] + SplitLines(intro) + [heading] + lines + [footer]
  {
    var titled := heading + "\n" + (JoinLines(lines) + "\n" + footer);
    var all := intro + "\n" + titled;
    SplitHeadingBody(heading, lines, footer);
    SplitConcat(intro, titled);
    SplitAfterNewline(all);
    Framed(SplitLines("\n" + all), SplitLines(all), SplitLines(titled), "", SplitLines(intro), heading, lines, footer);
  }

  /** A leading newline contributes one empty piece. */
  lemma SplitAfterNewline(rest: string)
    ensures SplitLines("\n" + rest) == [""] + SplitLines(rest)
  {
    SplitAfterLine("", rest);
    assert "" + "\n" + rest == "\n" + rest;
  }

  lemma Framed<T>(w: seq<T>, s: seq<T>, t: seq<T>, x: T, xs: seq<T>, h: T, body: seq<T>, f: T)
    requires w == [x] + s && s == xs + t && t == [h] + body + [f]
    ensures w == [x] + xs + [h] + body + [f]
  {
  }

  lemma SplitHeadingBody(heading: string, lines: seq<string>, footer: string)
    requires lines != []
    requires forall l :: l in lines ==> '\n' !in l
    requires '\n' !in heading && '\n' !in footer
    ensures SplitLines(heading + "\n" + (JoinLines(lines) + "\n" + footer)) == [heading] + lines + [footer]
  {
    var body := JoinLines(lines) + "\n" + footer;
    SplitJoin(lines);
    SplitConcat(JoinLines(lines), footer);
    assert SplitLines(body) == lines + [footer];
    SplitAfterLine(heading, body);
  }

  lemma PromptShape(query: string, joined: string)
    ensures PromptHeader(query) + joined + PromptFooter
            == "\n" + (IntroLine(query) + "\n" + (TitlesLine + "\n" + (joined + "\n" + FooterLine)))
  {
  }

  // ---------------------------------------------------------------------------
  // The reply

  /** The ASCII characters Python's `str.strip()` removes. */
  predicate IsSpace(c: char) {
    c == ' ' || (9 <= c as int <= 13) || (28 <= c as int <= 31)
  }

  function StripLeading(s: string): (r: string)
    ensures |r| <= |s| && r == s[|s| - |r|..]
    ensures r == [] || !IsSpace(r[0])
    ensures forall i :: 0 <= i < |s| - |r| ==> IsSpace(s[i])
  {
    if s != [] && IsSpace(s[0]) then
      var r := StripLeading(s[1..]);
      assert s[1..][|s| - 1 - |r|..] == s[|s| - |r|..];
      assert forall i :: 1 <= i < |s| - |r| ==> s[i] == s[1..][i - 1];
      r
    else s
  }

  function StripTrailing(s: string): (r: string)
    ensures |r| <= |s| && r == s[..|r|]
    ensures r == [] || !IsSpace(r[|r| - 1])
    ensures forall i :: |r| <= i < |s| ==> IsSpace(s[i])
  {
    if s != [] && IsSpace(s[|s| - 1]) then
      var r := StripTrailing(s[..|s| - 1]);
      assert s[..|s| - 1][..|r|] == s[..|r|];
      assert forall i :: |r| <= i < |s| - 1 ==> s[i] == s[..|s| - 1][i];
      r
    else s
  }

  /** `s.strip()`. */
  function Strip(s: string): (r: string)
    ensures |r| <= |s|
    ensures r == [] || (!IsSpace(r[0]) && !IsSpace(r[|r| - 1]))
  {
    StripTrailing(StripLeading(s))
  }

  /** `s.strip()` is a slice of `s` with only whitespace cut off either end. */
  lemma StripIsSlice(s: string)
    ensures var r := Strip(s);
            exists i {:trigger s[i..]} :: 0 <= i && i + |r| <= |s| && r == s[i..][..|r|]
              && (forall j :: 0 <= j < i ==> IsSpace(s[j]))
              && (forall j :: i + |r| <= j < |s| ==> IsSpace(s[j]))
  {
    var i := |s| - |StripLeading(s)|;
    StripCuts(s);
    assert s[i..] == StripLeading(s);
  }

  /** What `Strip` cuts off, located by the length of the leading cut. */
  lemma StripCuts(s: string)
    ensures var r := Strip(s);
            var i := |s| - |StripLeading(s)|;
            && 0 <= i && i + |r| <= |s| && r == s[i..][..|r|]
            && (forall j :: 0 <= j < i ==> IsSpace(s[j]))
            && (forall j :: i + |r| <= j < |s| ==> IsSpace(s[j]))
  {
    var l := StripLeading(s);
    var r := StripTrailing(l);
    SpaceAfter(s, |s| - |l|, |r|);
  }

  /** Whitespace at the end of the suffix from `i` is whitespace at the end of `s`. */
  lemma SpaceAfter(s: string, i: nat, n: nat)
    requires i <= |s| && n <= |s| - i
    requires forall j :: n <= j < |s| - i ==> IsSpace(s[i..][j])
    ensures forall j :: i + n <= j < |s| ==> IsSpace(s[j])
  {
    assert forall j :: i + n <= j < |s| ==> s[j] == s[i..][j - i];
  }

  /** `''.join(filter(str.isdigit, s))`. */
  function DigitsOf(s: string): (d: string)
    ensures AllDigits(d) && |d| <= |s|
  {
    if s == [] then []
    else (if IsDigit(s[0]) then [s[0]] else []) + DigitsOf(s[1..])
  }

  lemma {:induction false} DigitsOfConcat(a: string, b: string)
    ensures DigitsOf(a + b) == DigitsOf(a) + DigitsOf(b)
  {
    if a == [] {
      assert a + b == b;
    } else {
      assert (a + b)[0] == a[0];
      assert (a + b)[1..] == a[1..] + b;
      DigitsOfConcat(a[1..], b);
    }
  }

  lemma {:induction false} NoDigitsInSpace(s: string)
    requires forall i :: 0 <= i < |s| ==> IsSpace(s[i])
    ensures DigitsOf(s) == []
  {
    if s != [] {
      NoDigitsInSpace(s[1..]);
    }
  }

  lemma DigitsIgnoreLeading(s: string)
    ensures DigitsOf(StripLeading(s)) == DigitsOf(s)
  {
    var l := StripLeading(s);
    var n := |s| - |l|;
    var pre := s[..n];
    assert l == s[n..];
    assert s == pre + l;
    forall i | 0 <= i < |pre|
      ensures IsSpace(pre[i])
    {
      assert pre[i] == s[i];
    }
    NoDigitsInSpace(pre);
    DigitsOfConcat(pre, l);
  }

  lemma DigitsIgnoreTrailing(s: string)
    ensures DigitsOf(StripTrailing(s)) == DigitsOf(s)
  {
    var t := StripTrailing(s);
    var post := s[|t|..];
    assert s == t + post;
    forall i | 0 <= i < |post|
      ensures IsSpace(post[i])
    {
      assert post[i] == s[|t| + i];
    }
    NoDigitsInSpace(post);
    DigitsOfConcat(t, post);
  }

  /** Stripping never changes which digits the reply holds. */
  lemma DigitsIgnoreStrip(s: string)
    ensures DigitsOf(Strip(s)) == DigitsOf(s)
  {
    DigitsIgnoreLeading(s);
    DigitsIgnoreTrailing(StripLeading(s));
  }

  /**
   * `int(digits) - 1`, or `None` where `int('')` raises: the 0-based index
   * the reply names.
   */
  function ReplyIndex(reply: string): (idx: Option<int>)
    ensures idx.None? <==> DigitsOf(reply) == []
    ensures idx.Some? ==> idx.value >= -1
  {
    DigitsIgnoreStrip(reply);
    var digits := DigitsOf(Strip(reply));
    if digits == [] then None else Some(DigitsValue(digits) - 1)
  }

  /**
   * `analyze_titles(query, videos)` with the model's reply as input:
   * `None` for an empty list; otherwise the candidate the reply names when
   * that index is in range, and the first candidate in every other case.
   */
  function AnalyzeTitles(query: string, videos: seq<Video>, reply: Option<string>): (r: Option<Video>)
    ensures r.None? <==> videos == []
    ensures r.Some? ==> r.value in videos
    ensures videos != [] && (reply.None? || DigitsOf(reply.value) == []) ==> r == Some(videos[0])
  {
    if videos == [] then None
    else
      match reply
      case None => Some(videos[0])
      case Some(text) =>
        match ReplyIndex(text)
        case None => Some(videos[0])
        case Some(idx) => if 0 <= idx < |videos| then Some(videos[idx]) else Some(videos[0])
  }

  /**
   * Round trip with the prompt: a reply that is the number printed in front
   * of a title, whatever non-digit text surrounds it, selects that title's video.
   */
  lemma ReplyNumberSelectsListedVideo(query: string, videos: seq<Video>, k: nat, before: string, after: string)
    requires 1 <= k <= |videos|
    requires DigitsOf(before) == [] && DigitsOf(after) == []
    ensures AnalyzeTitles(query, videos, Some(before + Decimal(k) + after)) == Some(videos[k - 1])
  {
    var reply := before + Decimal(k) + after;
    ReplyNamingNumber(k, before, after);
    IndexInRangeSelects(query, videos, reply, k - 1);
  }

  /** An in-range index selects the video at that position. */
  lemma IndexInRangeSelects(query: string, videos: seq<Video>, reply: string, i: int)
    requires ReplyIndex(reply) == Some(i) && 0 <= i < |videos|
    ensures AnalyzeTitles(query, videos, Some(reply)) == Some(videos[i])
  {
  }

  lemma ReplyNamingNumber(k: nat, before: string, after: string)
    requires DigitsOf(before) == [] && DigitsOf(after) == []
    ensures ReplyIndex(before + Decimal(k) + after) == Some(k - 1)
  {
    var d := Decimal(k);
    DigitsAroundNumber(before, d, after);
    DecimalRoundTrip(k);
    ReplyIndexOfDigits(before + d + after, d);
  }

  /** The digits of a reply whose only digits are those of `d`. */
  lemma DigitsAroundNumber(before: string, d: string, after: string)
    requires AllDigits(d)
    requires DigitsOf(before) == [] && DigitsOf(after) == []
    ensures DigitsOf(before + d + after) == d
  {
    DigitsOfConcat(before + d, after);
    DigitsOfConcat(before, d);
    DigitsOfSelf(d);
  }


  lemma {:induction false} DigitsOfSelf(d: string)
    requires AllDigits(d)
    ensures DigitsOf(d) == d
  {
    if d != [] {
      DigitsOfSelf(d[1..]);
    }
  }

  lemma {:induction false} NoDigitsIn(s: string)
    requires forall i :: 0 <= i < |s| ==> !IsDigit(s[i])
    ensures DigitsOf(s) == []
  {
    if s != [] {
      NoDigitsIn(s[1..]);
    }
  }

  /** A reply whose number is 0 or beyond the list selects the first candidate. */
  lemma OutOfRangeFallsBack(query: string, videos: seq<Video>, k: nat)
    requires videos != []
    requires k == 0 || k > |videos|
    ensures AnalyzeTitles(query, videos, Some(Decimal(k))) == Some(videos[0])
  {
    DigitsOfSelf(Decimal(k));
    DecimalRoundTrip(k);
    DigitsIgnoreStrip(Decimal(k));
  }

  /**
   * Any reply whose digits name no listed video, such as "Video 7" for three
   * videos, "0", or "2 or 3" (read as 23) for fewer than 23, selects the first.
   */
  lemma OutOfRangeIndexFallsBack(query: string, videos: seq<Video>, reply: string, i: int)
    requires videos != [] && ReplyIndex(reply) == Some(i) && !(0 <= i < |videos|)
    ensures AnalyzeTitles(query, videos, Some(reply)) == Some(videos[0])
  {
  }

  /** The index depends only on the digits of the reply. */
  lemma ReplyIndexOfDigits(reply: string, digits: string)
    requires DigitsOf(reply) == digits && digits != []
    ensures ReplyIndex(reply) == Some(DigitsValue(digits) - 1)
  {
    DigitsIgnoreStrip(reply);
  }

  lemma DigitsOfExample()
    ensures DigitsOf("2 or 3") == "23"
  {
  }

  /** Every digit counts: "2 or 3" names candidate 23, i.e. index 22. */
  lemma AllDigitsConcatenate()
    ensures ReplyIndex("2 or 3") == Some(22)
  {
    DigitsOfExample();
    assert DigitsValue("23") == 23 by {
      assert "23"[..1] == "2";
    }
    ReplyIndexOfDigits("2 or 3", "23");
  }
}

=== FILE: pipeline.dfy ===
/**
 * Facts that connect the parts: the backend builds watch URLs the frontend
 * can read back, and the retrieval priority and the ranking score read a
 * duration through the same bands.
 */
module Pipeline {
  import opened Wrappers
  import opened Text
  import opened Videos
  import Ranking
  import Retrieval
  import opened VideoList

  /** The characters of the watch-URL prefix before its "v=" marker. */
  lemma WatchPrefixChars(q: nat)
    requires q < 30
    ensures Retrieval.WatchPrefix[q] != 'v'
    ensures Retrieval.WatchPrefix[q] == '/' ==> Retrieval.WatchPrefix[q + 1] in "/w"
    ensures Retrieval.WatchPrefix[q] == 'y' ==> q == 12 && Retrieval.WatchPrefix[17] == 'b'
    ensures Retrieval.WatchPrefix[30] == 'v' && Retrieval.WatchPrefix[31] == '='
  {
  }

  /** No marker starts inside the prefix before position 30. */
  lemma NoMarkerBeforeId(url: string, q: nat)
    requires |url| >= |Retrieval.WatchPrefix| && url[..|Retrieval.WatchPrefix|] == Retrieval.WatchPrefix
    requires q < 30
    ensures !SomeMarkerAt(url, q, Markers)
  {
    var w := Retrieval.WatchPrefix;
    WatchPrefixChars(q);
    assert url[q] == w[q] && url[q + 1] == w[q + 1];
    forall m | m in Markers
      ensures !OccursAt(url, q, m)
    {
      if q + |m| <= |url| {
        var seg := url[q..q + |m|];
        assert seg[0] == url[q] && seg[1] == url[q + 1];
        if m == "youtu.be/" {
          assert seg[5] == url[q + 5];
          assert url[17] == w[17];
        }
      }
    }
  }

  /**
   * Round trip between backend and frontend: the URL the backend builds
   * from an 11-character id, followed by anything, yields that id again.
   */
  lemma WatchUrlYieldsId(id: string, tail: string)
    requires IsVideoId(id)
    ensures GetYoutubeId(Retrieval.WatchUrl(id) + tail) == Some(id)
  {
    var url := Retrieval.WatchUrl(id) + tail;
    var w := Retrieval.WatchPrefix;
    assert url[..|w|] == w;
    WatchPrefixChars(0);
    assert OccursAt(url, 30, "v=") by {
      assert url[30..32] == w[30..32];
    }
    assert url[32..32 + IdLength] == id;
    assert MarkerThenIdAt(url, 30, "v=");
    assert SomeMarkerAt(url, 30, Markers);
    var r := GetYoutubeId(url);
    var p, m :| IsLeftmostMatch(url, p, Markers) && m in Markers && MarkerThenIdAt(url, p, m)
                && r.value == IdAfter(url, p, m);
    if p < 30 {
      NoMarkerBeforeId(url, p);
    }
    assert p == 30;
    MarkersExclusive(url, 30, m, "v=");
  }

  /** Every record the search returns opens in the frontend player by its own id. */
  lemma AdmittedRecordOpensById(item: Retrieval.Item)
    requires Retrieval.Usable(item) && IsVideoId(item.id.value)
    ensures GetYoutubeId(Retrieval.Candidate(item).url) == Some(item.id.value)
    ensures GetYoutubeId(Retrieval.FallbackRecord(item).url) == Some(item.id.value)
  {
    WatchUrlYieldsId(item.id.value, "");
    assert Retrieval.WatchUrl(item.id.value) + "" == Retrieval.WatchUrl(item.id.value);
  }

  /**
   * Retrieval priority and ranking points use the same duration bands: a
   * known duration earns 5 points plus 5 per unit of duration priority.
   */
  lemma DurationPointsTrackPriority(d: int)
    ensures Ranking.DurationPoints(Some(d)) == 5 + 5 * Retrieval.DurationPriority(Some(d))
  {
  }

  /** Likewise the recency part is 10 points per unit of recency bonus, up to 30 days. */
  lemma RecencyPointsTrackBonus(age: int)
    requires age <= 30
    ensures Ranking.RecencyPoints(AgeDays(age)) == 10 + 10 * Retrieval.RecencyBonus(AgeDays(age))
  {
  }

  /**
   * A fallback record carries only a title, a url and priority 0, so the
   * ranking can award it title points and nothing else.
   */
  lemma FallbackScoresTitleOnly(queryWords: set<string>, item: Retrieval.Item)
    requires Retrieval.Usable(item)
    ensures Ranking.Score(queryWords, Retrieval.FallbackRecord(item))
            == Ranking.TitlePoints(|queryWords * Tokens(item.snippet.value.title)|)
  {
    var v := Retrieval.FallbackRecord(item);
    NoLongRunNoTokens("");
    assert |queryWords * Tokens(v.snippet)| == 0;
    Ranking.BareCandidateScore(queryWords, v);
  }
}

=== FILE: ranking.dfy ===
/**
 * The ranking engine of `backend/analyze_titles.py`: every candidate gets an
 * integer score from five capped parts plus an uncapped priority bonus, and
 * the winner is the first candidate with the largest (priority, score) key.
 */
module Ranking {
  import opened Wrappers
  import opened Text
  import opened Videos

  // ---------------------------------------------------------------------------
  // The score parts

  /** `min(title_match * 5, 40)`. */
  function TitlePoints(matches: nat): (p: nat)
    ensures p <= 40
    ensures p % 5 == 0
    ensures p == 40 <==> matches >= 8
    ensures matches <= 8 ==> p == 5 * matches
  {
    if matches * 5 < 40 then matches * 5 else 40
  }

  /** `min(desc_match * 2, 10)`. */
  function DescriptionPoints(matches: nat): (p: nat)
    ensures p <= 10
    ensures p % 2 == 0
    ensures p == 10 <==> matches >= 5
    ensures matches <= 5 ==> p == 2 * matches
  {
    if matches * 2 < 10 then matches * 2 else 10
  }

  /** More matching title words never lower the title part. */
  lemma TitlePointsMonotone(m: nat, n: nat)
    requires m <= n
    ensures TitlePoints(m) <= TitlePoints(n)
  {
  }

  /** More matching description words never lower the description part. */
  lemma DescriptionPointsMonotone(m: nat, n: nat)
    requires m <= n
    ensures DescriptionPoints(m) <= DescriptionPoints(n)
  {
  }

  /** The recency part; an absent or unusable date contributes nothing. */
  function RecencyPoints(d: PubDate): (p: nat)
    ensures p <= 30
    ensures p == 30 <==> d.AgeDays? && d.days <= 7
    ensures p == 20 <==> d.AgeDays? && 7 < d.days <= 30
    ensures p == 10 <==> d.AgeDays? && 30 < d.days <= 90
    ensures p == 0 <==> !d.AgeDays? || d.days > 90
  {
    match d
    case AgeDays(age) =>
      if age <= 7 then 30
      else if age <= 30 then 20
      else if age <= 90 then 10
      else 0
    case _ => 0
  }

  /** An older video never earns more recency points than a newer one. */
  lemma RecencyNonIncreasing(a: int, b: int)
    requires a <= b
    ensures RecencyPoints(AgeDays(a)) >= RecencyPoints(AgeDays(b))
  {
  }

  /**
   * The duration part.  The source's bands overlap at 240 and 1500; the
   * first matching band wins, so 240 and 1500 both earn 20.
   */
  function DurationPoints(d: Option<int>): (p: nat)
    ensures p <= 20
    ensures p == 0 <==> d.None?
    ensures p == 20 <==> d.Some? && 240 <= d.value <= 1500
    ensures p == 15 <==> d.Some? && 120 <= d.value < 240
    ensures p == 10 <==> d.Some? && 1500 < d.value <= 1800
    ensures p == 5 <==> d.Some? && (d.value < 120 || d.value > 1800)
  {
    match d
    case None => 0
    case Some(secs) =>
      if 240 <= secs <= 1500 then 20
      else if 120 <= secs <= 240 then 15
      else if 1500 <= secs <= 1800 then 10
      else 5
  }

  /** A truthy thumbnail URL earns 5 points. */
  function ThumbnailPoints(thumbnail: string): (p: nat)
    ensures p == 5 <==> thumbnail != ""
    ensures p == 0 <==> thumbnail == ""
  {
    if thumbnail != "" then 5 else 0
  }

  /** The score of one candidate against the query's token set. */
  function Score(queryWords: set<string>, v: Video): (s: int)
    ensures 10 * PriorityOf(v) <= s <= 105 + 10 * PriorityOf(v)
    ensures PriorityOf(v) >= 0 ==> 0 <= s
  {
    TitlePoints(|queryWords * Tokens(v.title)|)
    + RecencyPoints(v.publishedAt)
    + DurationPoints(v.duration)
    + PriorityOf(v) * 10
    + DescriptionPoints(|queryWords * Tokens(v.snippet)|)
    + ThumbnailPoints(v.thumbnail)
  }

  /** With no query tokens only date, duration, priority and thumbnail count. */
  lemma EmptyQueryScoresMetadataOnly(v: Video)
    ensures Score({}, v) == RecencyPoints(v.publishedAt) + DurationPoints(v.duration)
                            + 10 * PriorityOf(v) + ThumbnailPoints(v.thumbnail)
  {
  }

  /** A thumbnail adds exactly 5 points to the score and changes nothing else. */
  lemma ThumbnailAddsFive(queryWords: set<string>, v: Video)
    requires v.thumbnail != ""
    ensures Score(queryWords, v) == Score(queryWords, v.(thumbnail := "")) + 5
  {
  }

  /** A query with no word run longer than two characters awards no relevance points. */
  lemma ShortQueryScoresMetadataOnly(query: string, v: Video)
    requires forall i :: 0 <= i && i + 2 < |query| ==>
               !(IsWordChar(query[i]) && IsWordChar(query[i + 1]) && IsWordChar(query[i + 2]))
    ensures Score(QueryTokens(query), v) == Score({}, v)
  {
    NoLongRunNoTokens(query);
  }

  /** A candidate with no date, no duration and no thumbnail scores exactly its relevance and priority. */
  lemma BareCandidateScore(queryWords: set<string>, v: Video)
    requires v.publishedAt == Absent && v.duration == None && v.thumbnail == ""
    requires PriorityOf(v) >= 0
    ensures Score(queryWords, v) == TitlePoints(|queryWords * Tokens(v.title)|)
                                    + DescriptionPoints(|queryWords * Tokens(v.snippet)|)
                                    + 10 * PriorityOf(v)
    ensures Score(queryWords, v) >= 0
  {
  }

  // ---------------------------------------------------------------------------
  // Selection

  /** The sort key `(priority, score)`. */
  datatype Key = Key(priority: int, score: int)

  /** `a` sorts strictly ahead of `b` under the descending lexicographic order. */
  predicate Outranks(a: Key, b: Key) {
    a.priority > b.priority || (a.priority == b.priority && a.score > b.score)
  }

  function KeyOf(queryWords: set<string>, v: Video): Key {
    Key(PriorityOf(v), Score(queryWords, v))
  }

  function Keys(queryWords: set<string>, videos: seq<Video>): (keys: seq<Key>)
    ensures |keys| == |videos|
    ensures forall i :: 0 <= i < |videos| ==> keys[i] == KeyOf(queryWords, videos[i])
  {
    seq(|videos|, i requires 0 <= i < |videos| => KeyOf(queryWords, videos[i]))
  }

  /** Nothing outranks position `b`, and `b` outranks every earlier position. */
  ghost predicate IsFirstBest(keys: seq<Key>, b: int) {
    && 0 <= b < |keys|
    && (forall j :: 0 <= j < |keys| ==> !Outranks(keys[j], keys[b]))
    && (forall j :: 0 <= j < b ==> Outranks(keys[b], keys[j]))
  }

  /** The position a stable descending sort puts first. */
  function FirstBest(keys: seq<Key>): (b: nat)
    requires |keys| > 0
    ensures IsFirstBest(keys, b)
  {
    if |keys| == 1 then 0
    else
      var last := |keys| - 1;
      var b := FirstBest(keys[..last]);
      if Outranks(keys[last], keys[b]) then last else b
  }

  /** At most one position is the first best. */
  lemma FirstBestUnique(keys: seq<Key>, a: int, b: int)
    requires IsFirstBest(keys, a) && IsFirstBest(keys, b)
    ensures a == b
  {
    assert !Outranks(keys[a], keys[b]) && !Outranks(keys[b], keys[a]);
  }

  /** A key whose priority is strictly the highest is the first best. */
  lemma HighestPriorityIsFirstBest(keys: seq<Key>, i: int)
    requires 0 <= i < |keys|
    requires forall j :: 0 <= j < |keys| && j != i ==> keys[j].priority < keys[i].priority
    ensures IsFirstBest(keys, i)
  {
  }

  /** Among equal priorities a strictly highest score is the first best. */
  lemma HighestScoreIsFirstBest(keys: seq<Key>, i: int)
    requires 0 <= i < |keys|
    requires forall j :: 0 <= j < |keys| ==> keys[j].priority == keys[i].priority
    requires forall j :: 0 <= j < |keys| && j != i ==> keys[j].score < keys[i].score
    ensures IsFirstBest(keys, i)
  {
  }

  /**
   * `analyze_titles(query, videos)`: `None` for an empty list, otherwise the
   * first candidate with the largest (priority, score) key, returned with
   * its `score` field set to its computed score and nothing else changed.
   */
  function AnalyzeTitles(query: string, videos: seq<Video>): (r: Option<Video>)
    ensures r.None? <==> videos == []
    ensures r.Some? ==> exists i :: IsFirstBest(Keys(QueryTokens(query), videos), i)
                                   && r.value == videos[i].(score := Some(Score(QueryTokens(query), videos[i])))
  {
    if videos == [] then None
    else
      var queryWords := QueryTokens(query);
      var b := FirstBest(Keys(queryWords, videos));
      Some(videos[b].(score := Some(Score(queryWords, videos[b]))))
  }

  /** The winner is determined: it is the unique first-best candidate. */
  lemma WinnerIsFirstBest(query: string, videos: seq<Video>, i: int)
    requires IsFirstBest(Keys(QueryTokens(query), videos), i)
    ensures AnalyzeTitles(query, videos) == Some(videos[i].(score := Some(Score(QueryTokens(query), videos[i]))))
  {
    var keys := Keys(QueryTokens(query), videos);
    FirstBestUnique(keys, i, FirstBest(keys));
  }

  /** The returned record differs from the input candidate only in its score. */
  lemma OnlyScoreChanges(query: string, videos: seq<Video>)
    requires videos != []
    ensures exists i :: 0 <= i < |videos|
                         && AnalyzeTitles(query, videos).value.(score := videos[i].score) == videos[i]
                         && AnalyzeTitles(query, videos).value.score == Some(Score(QueryTokens(query), videos[i]))
  {
    var qw := QueryTokens(query);
    var i := FirstBest(Keys(qw, videos));
    var v := videos[i];
    var s := Score(qw, v);
    WinnerIsFirstBest(query, videos, i);
    var r := AnalyzeTitles(query, videos).value;
    assert r == v.(score := Some(s));
    assert r.(score := v.score) == v;
  }

  /** A candidate whose priority beats every other candidate's wins whatever its score. */
  lemma StrictlyHighestPriorityWins(query: string, videos: seq<Video>, i: int)
    requires 0 <= i < |videos|
    requires forall j :: 0 <= j < |videos| && j != i ==> PriorityOf(videos[j]) < PriorityOf(videos[i])
    ensures AnalyzeTitles(query, videos) == Some(videos[i].(score := Some(Score(QueryTokens(query), videos[i]))))
  {
    var keys := Keys(QueryTokens(query), videos);
    forall j | 0 <= j < |keys| && j != i
      ensures keys[j].priority < keys[i].priority
    {
      assert keys[j] == KeyOf(QueryTokens(query), videos[j]);
    }
    HighestPriorityIsFirstBest(keys, i);
    WinnerIsFirstBest(query, videos, i);
  }

  /** Among equal priorities the higher score wins. */
  lemma ScoreBreaksPriorityTie(query: string, videos: seq<Video>, i: int)
    requires 0 <= i < |videos|
    requires forall j :: 0 <= j < |videos| ==> PriorityOf(videos[j]) == PriorityOf(videos[i])
    requires forall j :: 0 <= j < |videos| && j != i ==>
               Score(QueryTokens(query), videos[j]) < Score(QueryTokens(query), videos[i])
    ensures AnalyzeTitles(query, videos) == Some(videos[i].(score := Some(Score(QueryTokens(query), videos[i]))))
  {
    var keys := Keys(QueryTokens(query), videos);
    forall j | 0 <= j < |keys|
      ensures keys[j].priority == keys[i].priority
      ensures j != i ==> keys[j].score < keys[i].score
    {
      assert keys[j] == KeyOf(QueryTokens(query), videos[j]);
    }
    HighestScoreIsFirstBest(keys, i);
    WinnerIsFirstBest(query, videos, i);
  }

  /** When every key is equal the first candidate in input order wins. */
  lemma ExactTieFirstWins(query: string, videos: seq<Video>)
    requires videos != []
    requires forall j :: 0 <= j < |videos| ==>
               KeyOf(QueryTokens(query), videos[j]) == KeyOf(QueryTokens(query), videos[0])
    ensures AnalyzeTitles(query, videos) == Some(videos[0].(score := Some(Score(QueryTokens(query), videos[0]))))
  {
    var keys := Keys(QueryTokens(query), videos);
    assert IsFirstBest(keys, 0);
    WinnerIsFirstBest(query, videos, 0);
  }

  // ---------------------------------------------------------------------------
  // Agreement with the stable sort the source performs

  /** `order` lists the positions 0..n-1, each at least once. */
  ghost predicate CoversPositions(order: seq<nat>, n: nat) {
    && |order| == n
    && (forall p :: 0 <= p < |order| ==> order[p] < n)
    && (forall x :: 0 <= x < n ==> x in order)
  }

  /** Keys along `order` never increase. */
  ghost predicate DescendingAlong(keys: seq<Key>, order: seq<nat>)
    requires forall p :: 0 <= p < |order| ==> order[p] < |keys|
  {
    forall p, q :: 0 <= p < q < |order| ==> !Outranks(keys[order[q]], keys[order[p]])
  }

  /** Equal keys appear along `order` in input order. */
  ghost predicate StableAlong(keys: seq<Key>, order: seq<nat>)
    requires forall p :: 0 <= p < |order| ==> order[p] < |keys|
  {
    forall p, q :: 0 <= p < q < |order| && keys[order[p]] == keys[order[q]] ==> order[p] < order[q]
  }

  /** The head of a descending order is not outranked by any key. */
  lemma HeadIsMaximal(keys: seq<Key>, order: seq<nat>, j: int)
    requires |keys| > 0 && CoversPositions(order, |keys|)
    requires DescendingAlong(keys, order)
    requires 0 <= j < |keys|
    ensures !Outranks(keys[j], keys[order[0]])
  {
    assert j in order;
    var q :| 0 <= q < |order| && order[q] == j;
    assert q == 0 || !Outranks(keys[order[q]], keys[order[0]]);
  }

  /** In a stable descending order the head outranks every earlier position. */
  lemma HeadOutranksEarlier(keys: seq<Key>, order: seq<nat>, j: int)
    requires |keys| > 0 && CoversPositions(order, |keys|)
    requires DescendingAlong(keys, order) && StableAlong(keys, order)
    requires 0 <= j < order[0]
    ensures Outranks(keys[order[0]], keys[j])
  {
    assert j in order;
    var q :| 0 <= q < |order| && order[q] == j;
    assert 0 < q;
    assert !Outranks(keys[order[q]], keys[order[0]]);
    assert keys[order[0]] != keys[order[q]];
  }

  /**
   * `scored_videos.sort(key=(priority, score), reverse=True)` followed by
   * taking element 0: whatever stable descending order the sort produces,
   * its head is `FirstBest`.
   */
  lemma StableSortHeadIsFirstBest(keys: seq<Key>, order: seq<nat>)
    requires |keys| > 0
    requires CoversPositions(order, |keys|)
    requires DescendingAlong(keys, order)
    requires StableAlong(keys, order)
    ensures order[0] == FirstBest(keys)
  {
    var a := order[0];
    forall j | 0 <= j < |keys|
      ensures !Outranks(keys[j], keys[a])
    {
      HeadIsMaximal(keys, order, j);
    }
    forall j | 0 <= j < a
      ensures Outranks(keys[a], keys[j])
    {
      HeadOutranksEarlier(keys, order, j);
    }
    FirstBestUnique(keys, a, FirstBest(keys));
  }
}

=== FILE: retrieval.dfy ===
/**
 * The decision logic inside `search_youtube_videos` in
 * `backend/youtube_search.py`, applied to the already-decoded items of the
 * video-details response: the `PT#M#S` duration reading, the 0..5 priority,
 * the admission filter, the stable sort by priority, the title-length
 * fallback, truncation to 20, and the ASCII filter for error text.
 */
module Retrieval {
  import opened Wrappers
  import opened Text
  import opened Videos
  import StableSort

  // ---------------------------------------------------------------------------
  // Duration token

  /**
   * One optional `(\d+)X` group of the pattern at the front of `s`: the
   * number read and the characters consumed, or (0, 0) when the digits are
   * missing or not followed by the designator `x`.
   */
  function OptionalGroup(s: string, x: char): (r: (nat, nat))
    ensures r.1 <= |s|
    ensures r.1 == 0 ==> r.0 == 0
    ensures r.1 > 0 ==> r.1 >= 2 && s[r.1 - 1] == x && AllDigits(s[..r.1 - 1])
                        && r.0 == DigitsValue(s[..r.1 - 1])
    ensures !IsDigit(x) ==> (r.1 > 0 <==> 0 < DigitRunLength(s) < |s| && s[DigitRunLength(s)] == x)
  {
    var k := DigitRunLength(s);
    if 0 < k < |s| && s[k] == x then (DigitsValue(s[..k]), k + 1) else (0, 0)
  }

  /** The string starts with the two characters "PT". */
  predicate StartsWithPT(s: string) {
    |s| >= 2 && s[0] == 'P' && s[1] == 'T'
  }

  /**
   * `re.match(r'PT(?:(\d+)M)?(?:(\d+)S)?', iso_dur)` turned into seconds,
   * guarded by `if iso_dur:`.  The match is anchored at the start only.
   */
  function ParseDuration(iso: Option<string>): (r: Option<int>)
    ensures r.Some? <==> iso.Some? && StartsWithPT(iso.value)
    ensures r.Some? ==> r.value >= 0
  {
    match iso
    case None => None
    case Some(s) =>
      if s == "" || !StartsWithPT(s) then None
      else
        var rest := s[2..];
        var (minutes, used) := OptionalGroup(rest, 'M');
        var (seconds, _) := OptionalGroup(rest[used..], 'S');
        Some(minutes * 60 + seconds)
  }

  /** The canonical token "PT<m>M<s>S". */
  function FormatDuration(minutes: nat, seconds: nat): string {
    "PT" + Decimal(minutes) + "M" + Decimal(seconds) + "S"
  }

  /** A rendered number followed by a non-digit is read back as one group. */
  lemma GroupOfDecimal(n: nat, x: char, rest: string)
    requires !IsDigit(x)
    ensures OptionalGroup(Decimal(n) + [x] + rest, x) == (n, |Decimal(n)| + 1)
  {
    var d := Decimal(n);
    var s := d + [x] + rest;
    assert s[..|d|] == d;
    DigitRunLengthIsLongest(s, |d|);
    DecimalRoundTrip(n);
  }

  /** Any digit string followed by the designator, leading zeros included, is read as one group. */
  lemma GroupOfDigits(d: string, x: char, rest: string)
    requires d != [] && AllDigits(d) && !IsDigit(x)
    ensures OptionalGroup(d + [x] + rest, x) == (DigitsValue(d), |d| + 1)
  {
    var s := d + [x] + rest;
    assert s[..|d|] == d;
    assert forall i :: 0 <= i < |d| ==> s[..|d|][i] == d[i];
    DigitRunLengthIsLongest(s, |d|);
  }

  /** A group is absent when the text does not start with a digit. */
  lemma NoGroupWithoutDigit(s: string, x: char)
    requires s == [] || !IsDigit(s[0])
    ensures OptionalGroup(s, x) == (0, 0)
  {
  }

  /**
   * Round trip: a rendered token, followed by anything at all, is read back
   * as its number of seconds.
   */
  lemma ParseFormatted(minutes: nat, seconds: nat, tail: string)
    ensures ParseDuration(Some(FormatDuration(minutes, seconds) + tail)) == Some(60 * minutes + seconds)
  {
    var s := FormatDuration(minutes, seconds) + tail;
    var rest := s[2..];
    var sec := Decimal(seconds) + "S" + tail;
    assert rest == Decimal(minutes) + ['M'] + sec;
    GroupOfDecimal(minutes, 'M', sec);
    var used := |Decimal(minutes)| + 1;
    assert rest[used..] == Decimal(seconds) + ['S'] + tail;
    GroupOfDecimal(seconds, 'S', tail);
  }

  /** Minutes alone: "PT<m>M" followed by a non-digit gives 60·m. */
  lemma ParseMinutesOnly(minutes: nat, tail: string)
    requires tail == [] || !IsDigit(tail[0])
    ensures ParseDuration(Some("PT" + Decimal(minutes) + "M" + tail)) == Some(60 * minutes)
  {
    var s := "PT" + Decimal(minutes) + "M" + tail;
    var rest := Decimal(minutes) + ['M'] + tail;
    assert s[2..] == rest;
    GroupOfDecimal(minutes, 'M', tail);
    var used := |Decimal(minutes)| + 1;
    assert rest[used..] == tail;
    NoGroupWithoutDigit(tail, 'S');
    assert OptionalGroup(rest[used..], 'S') == (0, 0);
  }

  /** Seconds alone: "PT<s>S" gives s. */
  lemma ParseSecondsOnly(seconds: nat, tail: string)
    ensures ParseDuration(Some("PT" + Decimal(seconds) + "S" + tail)) == Some(seconds)
  {
    var s := "PT" + Decimal(seconds) + "S" + tail;
    var rest := s[2..];
    var d := Decimal(seconds);
    assert rest == d + ['S'] + tail;
    assert rest[..|d|] == d;
    DigitRunLengthIsLongest(rest, |d|);
    assert OptionalGroup(rest, 'M') == (0, 0);
    GroupOfDecimal(seconds, 'S', tail);
  }

  /**
   * An hours designator stops the pattern: "PT<h>H..." reads as 0 seconds
   * whatever follows, so "PT1H5M" gives 0.
   */
  lemma HoursReadAsZero(hours: nat, tail: string)
    ensures ParseDuration(Some("PT" + Decimal(hours) + "H" + tail)) == Some(0)
  {
    var s := "PT" + Decimal(hours) + "H" + tail;
    var rest := s[2..];
    var d := Decimal(hours);
    assert rest == d + ['H'] + tail;
    assert rest[..|d|] == d;
    DigitRunLengthIsLongest(rest, |d|);
  }

  // ---------------------------------------------------------------------------
  // Priority and admission

  /** The duration share of the priority. */
  function DurationPriority(d: Option<int>): (p: nat)
    ensures p <= 3
    ensures p == 3 <==> d.Some? && 240 <= d.value <= 1500
    ensures p == 2 <==> d.Some? && 120 <= d.value < 240
    ensures p == 1 <==> d.Some? && 1500 < d.value <= 1800
    ensures p == 0 <==> d.None? || d.value < 120 || d.value > 1800
  {
    match d
    case None => 0
    case Some(secs) =>
      if 240 <= secs <= 1500 then 3
      else if 120 <= secs <= 240 then 2
      else if 1500 <= secs <= 1800 then 1
      else 0
  }

  /** The recency share of the priority; only a usable date earns it. */
  function RecencyBonus(date: PubDate): (b: nat)
    ensures b <= 2
    ensures b == 2 <==> date.AgeDays? && date.days <= 7
    ensures b == 1 <==> date.AgeDays? && 7 < date.days <= 30
  {
    match date
    case AgeDays(age) => if age <= 7 then 2 else if age <= 30 then 1 else 0
    case _ => 0
  }

  /** The retrieval priority, always within 0..5. */
  function Priority(d: Option<int>, date: PubDate): (p: nat)
    ensures p <= 5
    ensures p >= DurationPriority(d)
    ensures !date.AgeDays? ==> p == DurationPriority(d)
    ensures date.AgeDays? ==> p == DurationPriority(d) + (if date.days <= 7 then 2 else if date.days <= 30 then 1 else 0)
  {
    DurationPriority(d) + RecencyBonus(date)
  }

  /**
   * Whether a record is kept: always with a usable date, with an unusable
   * date only when its priority is positive, with no date only when its
   * priority exceeds 1.
   */
  predicate Admit(date: PubDate, priority: int) {
    match date
    case AgeDays(_) => true
    case Unusable => priority > 0
    case Absent => priority > 1
  }

  /** Without a usable date, only a video of at least two minutes can be kept. */
  lemma AdmitWithoutDateNeedsDuration(d: Option<int>, date: PubDate)
    requires !date.AgeDays?
    requires Admit(date, Priority(d, date))
    ensures d.Some? && 120 <= d.value <= 1800
    ensures date == Absent ==> d.value <= 1500
  {
  }

  /**
   * A usable date always admits; otherwise raising the priority never turns
   * an admitted record away.
   */
  lemma AdmissionMonotone(date: PubDate, p: int, q: int)
    requires p <= q
    ensures date.AgeDays? ==> Admit(date, p)
    ensures Admit(date, p) ==> Admit(date, q)
    ensures date == Absent ==> (Admit(date, q) <==> q >= 2)
    ensures date == Unusable ==> (Admit(date, q) <==> q >= 1)
  {
  }

  // ---------------------------------------------------------------------------
  // Records

  /** The `snippet` object of a details item; missing keys are empty strings. */
  datatype Snippet = Snippet(
    title: string,
    description: string,
    thumbnail: string,
    channelTitle: string,
    publishedAt: PubDate)

  /** One decoded item of the details response; `id` or `snippet` may be missing. */
  datatype Item = Item(id: Option<string>, snippet: Option<Snippet>, isoDuration: Option<string>)

  const WatchPrefix: string := "https://www.youtube.com/watch?v="

  function WatchUrl(id: string): (url: string)
    ensures |url| == |WatchPrefix| + |id|
    ensures url[..|WatchPrefix|] == WatchPrefix && url[|WatchPrefix|..] == id
  {
    WatchPrefix + id
  }

  /** The item has the two keys whose absence raises `KeyError`. */
  predicate Usable(item: Item) {
    item.id.Some? && item.snippet.Some?
  }

  /** The record built for an item, with its priority attached. */
  function Candidate(item: Item): (v: Video)
    requires Usable(item)
    ensures v.url == WatchUrl(item.id.value)
    ensures v.title == item.snippet.value.title
    ensures 0 <= PriorityOf(v) <= 5 && v.priority.Some?
    ensures v.duration == ParseDuration(item.isoDuration)
    ensures v.publishedAt == item.snippet.value.publishedAt
    ensures v.snippet == item.snippet.value.description
    ensures v.thumbnail == item.snippet.value.thumbnail
    ensures v.channelTitle == item.snippet.value.channelTitle
    ensures v.priority == Some(Priority(v.duration, v.publishedAt))
    ensures v.score.None?
  {
    var sn := item.snippet.value;
    var duration := ParseDuration(item.isoDuration);
    Video(sn.title, WatchUrl(item.id.value), sn.description, sn.thumbnail, sn.channelTitle,
          duration, sn.publishedAt, Some(Priority(duration, sn.publishedAt)), None)
  }

  /** The item survives the first pass. */
  predicate Kept(item: Item) {
    Usable(item) && Admit(item.snippet.value.publishedAt, PriorityOf(Candidate(item)))
  }

  /** The first pass: kept items' records, in item order. */
  function Admitted(items: seq<Item>): (vs: seq<Video>)
    ensures |vs| <= |items|
    ensures forall v :: v in vs ==> 0 <= PriorityOf(v) <= 5
  {
    if items == [] then []
    else (if Kept(items[0]) then [Candidate(items[0])] else []) + Admitted(items[1..])
  }

  /** The first pass handles each item on its own: it distributes over concatenation. */
  lemma {:induction false} AdmittedConcat(a: seq<Item>, b: seq<Item>)
    ensures Admitted(a + b) == Admitted(a) + Admitted(b)
  {
    if a == [] {
      assert a + b == b;
    } else {
      var head := if Kept(a[0]) then [Candidate(a[0])] else [];
      assert (a + b)[0] == a[0];
      assert (a + b)[1..] == a[1..] + b;
      assert Admitted(a + b) == head + Admitted(a[1..] + b);
      assert Admitted(a) == head + Admitted(a[1..]);
      AdmittedConcat(a[1..], b);
    }
  }

  /** An item missing `id` or `snippet` is skipped and processing continues. */
  lemma UnusableItemSkipped(a: seq<Item>, x: Item, b: seq<Item>)
    requires !Usable(x)
    ensures Admitted(a + [x] + b) == Admitted(a) + Admitted(b)
  {
    AdmittedConcat(a + [x], b);
    AdmittedConcat(a, [x]);
    assert Admitted([x]) == [] by {
      assert [x][1..] == [];
    }
  }

  /** Exactly the kept items' records make it through the first pass. */
  lemma {:induction false} AdmittedMembers(items: seq<Item>, v: Video)
    ensures v in Admitted(items) <==> exists i :: 0 <= i < |items| && Kept(items[i]) && Candidate(items[i]) == v
  {
    if items != [] {
      AdmittedMembers(items[1..], v);
      if exists i :: 0 <= i < |items| && Kept(items[i]) && Candidate(items[i]) == v {
        var i :| 0 <= i < |items| && Kept(items[i]) && Candidate(items[i]) == v;
        if i > 0 {
          assert items[1..][i - 1] == items[i];
        }
      }
      if exists i :: 0 <= i < |items[1..]| && Kept(items[1..][i]) && Candidate(items[1..][i]) == v {
        var i :| 0 <= i < |items[1..]| && Kept(items[1..][i]) && Candidate(items[1..][i]) == v;
        assert items[i + 1] == items[1..][i];
      }
    }
  }

  /** The second pass: a priority-0 record with title and url for every usable item. */
  function FallbackRecord(item: Item): (v: Video)
    requires Usable(item)
    ensures v.url == WatchUrl(item.id.value) && v.title == item.snippet.value.title
    ensures PriorityOf(v) == 0
    ensures v.snippet == "" && v.thumbnail == "" && v.channelTitle == ""
    ensures v.duration.None? && v.publishedAt == Absent && v.score.None?
  {
    Video(item.snippet.value.title, WatchUrl(item.id.value), "", "", "", None, Absent, Some(0), None)
  }

  function Fallback(items: seq<Item>): (vs: seq<Video>)
    ensures |vs| <= |items|
    ensures forall v :: v in vs ==> v.priority == Some(0)
  {
    if items == [] then []
    else (if Usable(items[0]) then [FallbackRecord(items[0])] else []) + Fallback(items[1..])
  }

  /** The second pass handles each item on its own: it distributes over concatenation. */
  lemma {:induction false} FallbackConcat(a: seq<Item>, b: seq<Item>)
    ensures Fallback(a + b) == Fallback(a) + Fallback(b)
  {
    if a == [] {
      assert a + b == b;
    } else {
      var head := if Usable(a[0]) then [FallbackRecord(a[0])] else [];
      assert (a + b)[0] == a[0];
      assert (a + b)[1..] == a[1..] + b;
      assert Fallback(a + b) == head + Fallback(a[1..] + b);
      assert Fallback(a) == head + Fallback(a[1..]);
      FallbackConcat(a[1..], b);
    }
  }

  /** Every item with an id and a snippet, and no other, contributes its fallback record. */
  lemma {:induction false} FallbackMembers(items: seq<Item>, v: Video)
    ensures v in Fallback(items) <==> exists i :: 0 <= i < |items| && Usable(items[i]) && FallbackRecord(items[i]) == v
  {
    if items != [] {
      FallbackMembers(items[1..], v);
      if exists i :: 0 <= i < |items| && Usable(items[i]) && FallbackRecord(items[i]) == v {
        var i :| 0 <= i < |items| && Usable(items[i]) && FallbackRecord(items[i]) == v;
        if i > 0 {
          assert items[1..][i - 1] == items[i];
        }
      }
      if exists i :: 0 <= i < |items[1..]| && Usable(items[1..][i]) && FallbackRecord(items[1..][i]) == v {
        var i :| 0 <= i < |items[1..]| && Usable(items[1..][i]) && FallbackRecord(items[1..][i]) == v;
        assert items[i + 1] == items[1..][i];
      }
    }
  }

  function TitleLength(v: Video): int {
    |v.title|
  }

  const MaxResults: nat := 20

  /** `videos[:20]`. */
  function Truncate<T>(xs: seq<T>): (r: seq<T>)
    ensures |r| <= MaxResults
    ensures |r| == if |xs| < MaxResults then |xs| else MaxResults
    ensures r == xs[..|r|]
  {
    if |xs| <= MaxResults then xs else xs[..MaxResults]
  }

  /** The list the search returns for a non-empty query. */
  function SearchResults(items: seq<Item>): (r: seq<Video>)
    ensures |r| <= MaxResults
  {
    var admitted := Admitted(items);
    if admitted != [] then Truncate(StableSort.Sort(admitted, PriorityOf))
    else Truncate(StableSort.Sort(Fallback(items), TitleLength))
  }

  /**
   * When the first pass keeps something, the result is the first (at most)
   * 20 records of a stable sort of them by non-increasing priority.
   */
  lemma ResultsWhenAdmitted(items: seq<Item>)
    requires Admitted(items) != []
    ensures var sorted := StableSort.Sort(Admitted(items), PriorityOf);
            && StableSort.IsStableSortDesc(Admitted(items), sorted, PriorityOf)
            && SearchResults(items) == sorted[..|SearchResults(items)|]
            && |SearchResults(items)| == (if |sorted| < MaxResults then |sorted| else MaxResults)
            && forall v :: v in SearchResults(items) ==> v in Admitted(items)
  {
    var sorted := StableSort.Sort(Admitted(items), PriorityOf);
    StableSort.SortIsStableSortDesc(Admitted(items), PriorityOf);
    forall v | v in SearchResults(items)
      ensures v in Admitted(items)
    {
      assert v in sorted;
      assert v in multiset(sorted);
    }
  }

  /**
   * When nothing is kept, the result is the first (at most) 20 fallback
   * records, stably sorted by non-increasing title length, all of priority 0.
   */
  lemma ResultsWhenNothingAdmitted(items: seq<Item>)
    requires Admitted(items) == []
    ensures var sorted := StableSort.Sort(Fallback(items), TitleLength);
            && StableSort.IsStableSortDesc(Fallback(items), sorted, TitleLength)
            && SearchResults(items) == sorted[..|SearchResults(items)|]
            && |SearchResults(items)| == (if |sorted| < MaxResults then |sorted| else MaxResults)
            && forall v :: v in SearchResults(items) ==> v in Fallback(items) && v.priority == Some(0)
  {
    var sorted := StableSort.Sort(Fallback(items), TitleLength);
    StableSort.SortIsStableSortDesc(Fallback(items), TitleLength);
    forall v | v in SearchResults(items)
      ensures v in Fallback(items)
    {
      assert v in sorted;
      assert v in multiset(sorted);
    }
  }

  // ---------------------------------------------------------------------------
  // Entry point and error text

  /** The characters of `s` whose code is below 128, in order. */
  function AsciiOnly(s: string): (r: string)
    ensures |r| <= |s|
    ensures IsAscii(r)
    ensures forall c :: multiset(r)[c] == if c as int < 128 then multiset(s)[c] else 0
  {
    if s == [] then []
    else
      assert s == [s[0]] + s[1..];
      (if s[0] as int < 128 then [s[0]] else []) + AsciiOnly(s[1..])
  }

  /** The filter works character by character: it distributes over concatenation. */
  lemma {:induction false} AsciiOnlyConcat(a: string, b: string)
    ensures AsciiOnly(a + b) == AsciiOnly(a) + AsciiOnly(b)
  {
    if a == [] {
      assert a + b == b;
    } else {
      assert (a + b)[0] == a[0];
      assert (a + b)[1..] == a[1..] + b;
      AsciiOnlyConcat(a[1..], b);
    }
  }

  /** ASCII text passes unchanged, so the filter is idempotent. */
  lemma {:induction false} AsciiOnlyKeepsAscii(s: string)
    requires IsAscii(s)
    ensures AsciiOnly(s) == s
  {
    if s != [] {
      AsciiOnlyKeepsAscii(s[1..]);
    }
  }

  predicate IsAscii(s: string) {
    forall i :: 0 <= i < |s| ==> s[i] as int < 128
  }

  /** Labels of the two outer handlers. */
  const RequestErrorLabel: string := "Error making YouTube API request: "
  const OuterErrorLabel: string := "Error in search_youtube_videos: "

  /**
   * The `error` text of an outer handler: the handler's label followed by the
   * exception message with every non-ASCII character dropped.
   */
  function ErrorText(prefix: string, message: string): (t: string)
    requires IsAscii(prefix)
    ensures IsAscii(t)
    ensures |prefix| <= |t| <= |prefix| + |message|
    ensures t[..|prefix|] == prefix
    ensures t[|prefix|..] == AsciiOnly(message)
  {
    prefix + AsciiOnly(message)
  }

  /** Both handlers' labels are ASCII, so their error texts are the label followed by the filtered message. */
  lemma HandlerErrorTexts(message: string)
    ensures IsAscii(RequestErrorLabel) && IsAscii(OuterErrorLabel)
    ensures ErrorText(RequestErrorLabel, message) == RequestErrorLabel + AsciiOnly(message)
    ensures ErrorText(OuterErrorLabel, message) == OuterErrorLabel + AsciiOnly(message)
  {
  }

  /** An ASCII message reaches the error text unchanged. */
  lemma AsciiMessageKept(prefix: string, message: string)
    requires IsAscii(prefix) && IsAscii(message)
    ensures ErrorText(prefix, message) == prefix + message
  {
    AsciiOnlyKeepsAscii(message);
  }

  const EmptyQueryError: string := "Search query cannot be empty"

  /**
   * `search_youtube_videos(query)` once the details response has been
   * decoded into `items`: an empty query is refused, otherwise the result list.
   */
  function SearchVideos(query: string, items: seq<Item>): (r: Result<seq<Video>, string>)
    ensures r.Failure? <==> query == ""
    ensures r.Failure? ==> r.error == EmptyQueryError
    ensures r.Success? ==> |r.value| <= MaxResults
  {
    if query == "" then Failure(EmptyQueryError) else Success(SearchResults(items))
  }
}

=== FILE: stable_sort.dfy ===
/**
 * Python's `list.sort(key=k, reverse=True)` for an integer key, specified by
 * what it guarantees rather than by how timsort achieves it: the result is a
 * permutation of the input, its keys never increase, and elements with equal
 * keys keep their input order (Python's sort stays stable under
 * `reverse=True`).  The algorithm here is a stable insertion sort.
 */
module StableSort {

  /** Keys never increase from left to right. */
  predicate SortedDesc<T>(s: seq<T>, key: T -> int) {
    forall i, j :: 0 <= i < j < |s| ==> key(s[i]) >= key(s[j])
  }

  /** The elements of `s` whose key is `k`, in their order in `s`. */
  function WithKey<T>(s: seq<T>, key: T -> int, k: int): (r: seq<T>)
    ensures |r| <= |s|
    ensures forall x :: x in r ==> x in s && key(x) == k
  {
    if s == [] then []
    else (if key(s[0]) == k then [s[0]] else []) + WithKey(s[1..], key, k)
  }

  /**
   * The stable-sort contract: `out` is ordered by non-increasing key and,
   * for every key, lists exactly the input elements with that key in input
   * order.
   */
  ghost predicate IsStableSortDesc<T>(input: seq<T>, out: seq<T>, key: T -> int) {
    && SortedDesc(out, key)
    && forall k :: WithKey(out, key, k) == WithKey(input, key, k)
  }

  /**
   * Places `x` in front of the first element whose key is not larger than
   * its own, so `x` precedes every element of `s` with the same key.
   */
  function Insert<T>(x: T, s: seq<T>, key: T -> int): (r: seq<T>)
    ensures |r| == |s| + 1
    ensures multiset(r) == multiset(s) + multiset{x}
  {
    if s == [] || key(s[0]) <= key(x) then [x] + s
    else
      assert s == [s[0]] + s[1..];
      [s[0]] + Insert(x, s[1..], key)
  }

  lemma {:induction false} InsertSorted<T>(x: T, s: seq<T>, key: T -> int)
    requires SortedDesc(s, key)
    ensures SortedDesc(Insert(x, s, key), key)
  {
    if s == [] || key(s[0]) <= key(x) {
    } else {
      var tail := Insert(x, s[1..], key);
      InsertSorted(x, s[1..], key);
      forall y | y in tail
        ensures key(y) <= key(s[0])
      {
        assert y in multiset(tail);
        assert y == x || y in multiset(s[1..]);
      }
      assert Insert(x, s, key) == [s[0]] + tail;
    }
  }

  lemma {:induction false} WithKeyConcat<T>(a: seq<T>, b: seq<T>, key: T -> int, k: int)
    ensures WithKey(a + b, key, k) == WithKey(a, key, k) + WithKey(b, key, k)
  {
    if a == [] {
      assert a + b == b;
    } else {
      assert (a + b)[0] == a[0];
      assert (a + b)[1..] == a[1..] + b;
      WithKeyConcat(a[1..], b, key, k);
    }
  }

  lemma {:induction false} InsertKeepsKeyClasses<T>(x: T, s: seq<T>, key: T -> int, k: int)
    ensures WithKey(Insert(x, s, key), key, k) == WithKey([x] + s, key, k)
  {
    if s == [] || key(s[0]) <= key(x) {
    } else {
      var t := s[1..];
      var h := if key(s[0]) == k then [s[0]] else [];
      var e := if key(x) == k then [x] else [];
      assert key(x) == k ==> key(s[0]) != k;
      calc {
        WithKey(Insert(x, s, key), key, k);
        { assert Insert(x, s, key) == [s[0]] + Insert(x, t, key);
          WithKeyConcat([s[0]], Insert(x, t, key), key, k); }
        h + WithKey(Insert(x, t, key), key, k);
        { InsertKeepsKeyClasses(x, t, key, k);
          WithKeyConcat([x], t, key, k); }
        h + (e + WithKey(t, key, k));
        e + (h + WithKey(t, key, k));
        { WithKeyConcat([s[0]], t, key, k); assert [s[0]] + t == s; }
        e + WithKey(s, key, k);
        { WithKeyConcat([x], s, key, k); }
        WithKey([x] + s, key, k);
      }
    }
  }

  /** Stable insertion sort by non-increasing key. */
  function Sort<T>(s: seq<T>, key: T -> int): (r: seq<T>)
    ensures |r| == |s|
    ensures multiset(r) == multiset(s)
  {
    if s == [] then []
    else
      assert s == [s[0]] + s[1..];
      Insert(s[0], Sort(s[1..], key), key)
  }

  lemma {:induction false} SortSorted<T>(s: seq<T>, key: T -> int)
    ensures SortedDesc(Sort(s, key), key)
  {
    if s != [] {
      SortSorted(s[1..], key);
      InsertSorted(s[0], Sort(s[1..], key), key);
    }
  }

  lemma {:induction false} SortKeepsKeyClass<T>(s: seq<T>, key: T -> int, k: int)
    ensures WithKey(Sort(s, key), key, k) == WithKey(s, key, k)
  {
    if s != [] {
      var t := s[1..];
      var rest := Sort(t, key);
      assert Sort(s, key) == Insert(s[0], rest, key);
      SortKeepsKeyClass(t, key, k);
      InsertKeepsKeyClasses(s[0], rest, key, k);
      WithKeyConcat([s[0]], rest, key, k);
      WithKeyConcat([s[0]], t, key, k);
      assert [s[0]] + t == s;
    }
  }

  /** `Sort` meets the stable-sort contract. */
  lemma SortIsStableSortDesc<T>(s: seq<T>, key: T -> int)
    ensures IsStableSortDesc(s, Sort(s, key), key)
  {
    SortSorted(s, key);
    forall k
      ensures WithKey(Sort(s, key), key, k) == WithKey(s, key, k)
    {
      SortKeepsKeyClass(s, key, k);
    }
  }

  /** The head of the sorted list carries the largest key of the input. */
  lemma SortHead<T>(s: seq<T>, key: T -> int)
    requires s != []
    ensures forall x :: x in s ==> key(x) <= key(Sort(s, key)[0])
  {
    var r := Sort(s, key);
    SortIsStableSortDesc(s, key);
    forall x | x in s
      ensures key(x) <= key(r[0])
    {
      assert x in multiset(r);
      var j :| 0 <= j < |r| && r[j] == x;
    }
  }
}

=== FILE: text.dfy ===
/**
 * Character classes and string helpers used by the backend and the frontend:
 * word runs (Python's `re.findall(r'\w+', s)`), lower-casing, and decimal
 * digit strings.  Only ASCII is modelled: `\w` is [A-Za-z0-9_], `lower()`
 * folds 'A'..'Z', and a digit is '0'..'9'.
 */
module Text {

  /** The regex class `\w` restricted to ASCII. */
  predicate IsWordChar(c: char) {
    ('a' <= c <= 'z') || ('A' <= c <= 'Z') || ('0' <= c <= '9') || c == '_'
  }

  predicate IsDigit(c: char) {
    '0' <= c <= '9'
  }

  predicate AllWordChars(s: string) {
    forall i :: 0 <= i < |s| ==> IsWordChar(s[i])
  }

  predicate AllDigits(s: string) {
    forall i :: 0 <= i < |s| ==> IsDigit(s[i])
  }

  /** `c.lower()` on ASCII. */
  function LowerChar(c: char): (d: char)
    ensures IsWordChar(d) <==> IsWordChar(c)
    ensures !('A' <= d <= 'Z')
  {
    if 'A' <= c <= 'Z' then (c as int - 'A' as int + 'a' as int) as char else c
  }

  /** `s.lower()` on ASCII: every character folded, length kept. */
  function Lower(s: string): (r: string)
    ensures |r| == |s|
    ensures forall i :: 0 <= i < |s| ==> r[i] == LowerChar(s[i])
  {
    seq(|s|, i requires 0 <= i < |s| => LowerChar(s[i]))
  }

  // ---------------------------------------------------------------------------
  // Word runs

  /** Length of the longest prefix of `s` made only of word characters. */
  function RunLength(s: string): (k: nat)
    ensures k <= |s|
    ensures forall i :: 0 <= i < k ==> IsWordChar(s[i])
    ensures k == |s| || !IsWordChar(s[k])
  {
    if s == [] || !IsWordChar(s[0]) then 0 else 1 + RunLength(s[1..])
  }

  /**
   * The maximal runs of word characters in `s`, left to right: what
   * `re.findall(r'\w+', s)` returns.
   */
  function WordRuns(s: string): (runs: seq<string>)
    ensures forall w :: w in runs ==> |w| > 0 && AllWordChars(w)
    decreases |s|
  {
    if s == [] then []
    else if !IsWordChar(s[0]) then WordRuns(s[1..])
    else
      var k := RunLength(s);
      [s[..k]] + WordRuns(s[k..])
  }

  /** `s[i..j]` is a run of word characters that cannot be extended either way. */
  ghost predicate IsMaximalRun(s: string, i: int, j: int) {
    && 0 <= i < j <= |s|
    && (forall p :: i <= p < j ==> IsWordChar(s[p]))
    && (i == 0 || !IsWordChar(s[i - 1]))
    && (j == |s| || !IsWordChar(s[j]))
  }

  /** A maximal run of a suffix is a maximal run of the whole string. */
  lemma ShiftMaximalRun(s: string, k: nat, i: int, j: int)
    requires k <= |s|
    requires IsMaximalRun(s[k..], i, j)
    requires i > 0 || k == 0 || !IsWordChar(s[k - 1])
    ensures IsMaximalRun(s, i + k, j + k)
    ensures s[k..][i..j] == s[i + k..j + k]
  {
    var t := s[k..];
    assert forall p :: i + k <= p < j + k ==> s[p] == t[p - k];
  }

  lemma {:induction false} RunsAreMaximal(s: string, w: string)
    requires w in WordRuns(s)
    ensures exists i, j :: IsMaximalRun(s, i, j) && s[i..j] == w
    decreases |s|
  {
    if !IsWordChar(s[0]) {
      RunsAreMaximal(s[1..], w);
      var i, j :| IsMaximalRun(s[1..], i, j) && s[1..][i..j] == w;
      ShiftMaximalRun(s, 1, i, j);
    } else {
      var k := RunLength(s);
      if w == s[..k] {
        assert IsMaximalRun(s, 0, k) && s[0..k] == w;
      } else {
        RestOfRuns(s, k, w);
      }
    }
  }

  lemma {:induction false} RestOfRuns(s: string, k: nat, w: string)
    requires s != [] && IsWordChar(s[0]) && k == RunLength(s)
    requires w in WordRuns(s[k..])
    ensures exists i, j :: IsMaximalRun(s, i, j) && s[i..j] == w
    decreases |s|, 0
  {
    var t := s[k..];
    RunsAreMaximal(t, w);
    var i, j :| IsMaximalRun(t, i, j) && t[i..j] == w;
    ShiftMaximalRun(s, k, i, j);
  }

  lemma MaximalRunsAreRuns(s: string, i: int, j: int)
    requires IsMaximalRun(s, i, j)
    ensures s[i..j] in WordRuns(s)
  {
    RunsFrom(s, 0, i, j);
    assert s[0..] == s;
  }

  /** A maximal run starting at or after `k`, and not continuing a run begun before `k`, is a run of `s[k..]`. */
  lemma {:induction false} RunsFrom(s: string, k: nat, i: int, j: int)
    requires IsMaximalRun(s, i, j) && k <= i
    requires k == i || !IsWordChar(s[i - 1])
    ensures s[i..j] in WordRuns(s[k..])
    decreases |s| - k, 1
  {
    if !IsWordChar(s[k]) {
      RunsFrom(s, k + 1, i, j);
      SkipNonWord(s, k, s[i..j]);
    } else if k == i {
      FirstRunFrom(s, i, j);
    } else {
      RunsAfterRunFrom(s, k, i, j);
    }
  }

  /** The case of `RunsFrom` where another run starts at `k`. */
  lemma {:induction false} RunsAfterRunFrom(s: string, k: nat, i: int, j: int)
    requires IsMaximalRun(s, i, j) && k < i && IsWordChar(s[k])
    requires !IsWordChar(s[i - 1])
    ensures s[i..j] in WordRuns(s[k..])
    decreases |s| - k, 0
  {
    var m := k + RunLength(s[k..]);
    RunEndsBefore(s, k, i, j);
    RunsFrom(s, m, i, j);
    AfterFirstRun(s, k, m, s[i..j]);
  }

  /** The maximal run starting at `i` is the first run of `s[i..]`. */
  lemma FirstRunFrom(s: string, i: int, j: int)
    requires IsMaximalRun(s, i, j)
    ensures s[i..j] in WordRuns(s[i..])
  {
    var t := s[i..];
    RunLengthOfMaximal(s, i, j);
    FirstRunOf(t);
    assert t[..j - i] == s[i..j];
  }

  lemma RunLengthOfMaximal(s: string, i: int, j: int)
    requires IsMaximalRun(s, i, j)
    ensures RunLength(s[i..]) == j - i
  {
    var t := s[i..];
    assert forall p :: 0 <= p < j - i ==> t[p] == s[p + i];
    assert j - i == |t| || t[j - i] == s[j];
    RunLengthIsLongest(t, j - i);
  }

  lemma FirstRunOf(t: string)
    requires t != [] && IsWordChar(t[0])
    ensures t[..RunLength(t)] in WordRuns(t)
  {
    assert WordRuns(t) == [t[..RunLength(t)]] + WordRuns(t[RunLength(t)..]);
  }

  /** A non-word character at `k` contributes no run. */
  lemma SkipNonWord(s: string, k: nat, w: string)
    requires k < |s| && !IsWordChar(s[k]) && w in WordRuns(s[k + 1..])
    ensures w in WordRuns(s[k..])
  {
    assert s[k..][1..] == s[k + 1..];
    assert WordRuns(s[k..]) == WordRuns(s[k..][1..]);
  }

  /** The runs after the first run of `s[k..]` are runs of `s[k..]`. */
  lemma AfterFirstRun(s: string, k: nat, m: nat, w: string)
    requires k < |s| && IsWordChar(s[k]) && m == k + RunLength(s[k..])
    requires w in WordRuns(s[m..])
    ensures w in WordRuns(s[k..])
  {
    var t := s[k..];
    var r := RunLength(t);
    assert t[r..] == s[m..];
    assert WordRuns(t) == [t[..r]] + WordRuns(t[r..]);
  }

  /** A run beginning at `k` ends before a later maximal run starts. */
  lemma RunEndsBefore(s: string, k: nat, i: int, j: int)
    requires IsMaximalRun(s, i, j) && k < i && IsWordChar(s[k])
    requires !IsWordChar(s[i - 1])
    ensures 0 < RunLength(s[k..]) && k + RunLength(s[k..]) < i
  {
    var t := s[k..];
    assert t[0] == s[k];
    assert t[i - 1 - k] == s[i - 1];
  }

  /**
   * Reference characterisation of the word runs: a string is one of the runs
   * exactly when it occupies a maximal stretch of word characters in `s`.
   */
  lemma WordRunsCharacterised(s: string, w: string)
    ensures w in WordRuns(s) <==> exists i, j :: IsMaximalRun(s, i, j) && s[i..j] == w
  {
    if w in WordRuns(s) {
      RunsAreMaximal(s, w);
    }
    if exists i, j :: IsMaximalRun(s, i, j) && s[i..j] == w {
      var i, j :| IsMaximalRun(s, i, j) && s[i..j] == w;
      MaximalRunsAreRuns(s, i, j);
    }
  }

  // ---------------------------------------------------------------------------
  // Tokens

  /**
   * Tokens of a title or description: the text is lower-cased first, then
   * its word runs longer than two characters are collected into a set.
   */
  function Tokens(s: string): (t: set<string>)
    ensures forall w :: w in t ==> |w| > 2 && AllWordChars(w) && Lower(w) == w
  {
    var low := Lower(s);
    LowerRunsAreLower(low);
    set w | w in WordRuns(low) && |w| > 2
  }

  /**
   * Tokens of the query: word runs longer than two characters are kept
   * first and lower-cased afterwards.
   */
  function QueryTokens(q: string): (t: set<string>)
    ensures forall w :: w in t ==> |w| > 2 && AllWordChars(w)
  {
    set w | w in WordRuns(q) && |w| > 2 :: Lower(w)
  }

  lemma LowerRunsAreLower(low: string)
    requires Lower(low) == low
    ensures forall w :: w in WordRuns(low) ==> Lower(w) == w
  {
    forall w | w in WordRuns(low)
      ensures Lower(w) == w
    {
      RunsAreMaximal(low, w);
      var i, j :| IsMaximalRun(low, i, j) && low[i..j] == w;
      SliceOfLowerIsLower(low, i, j);
    }
  }

  lemma SliceOfLowerIsLower(low: string, i: int, j: int)
    requires Lower(low) == low && 0 <= i <= j <= |low|
    ensures Lower(low[i..j]) == low[i..j]
  {
    var w := low[i..j];
    assert forall p :: 0 <= p < |w| ==> w[p] == low[i + p] && Lower(low)[i + p] == LowerChar(low[i + p]);
  }

  function LowerAll(ws: seq<string>): (r: seq<string>)
    ensures |r| == |ws|
    ensures forall i :: 0 <= i < |ws| ==> r[i] == Lower(ws[i])
  {
    seq(|ws|, i requires 0 <= i < |ws| => Lower(ws[i]))
  }

  lemma RunLengthLower(s: string)
    ensures RunLength(Lower(s)) == RunLength(s)
  {
    var k := RunLength(s);
    var low := Lower(s);
    assert forall i :: 0 <= i < k ==> IsWordChar(low[i]);
    RunLengthIsLongest(low, k);
  }

  lemma RunLengthIsLongest(s: string, k: nat)
    requires k <= |s|
    requires forall i :: 0 <= i < k ==> IsWordChar(s[i])
    requires k == |s| || !IsWordChar(s[k])
    ensures RunLength(s) == k
  {
  }

  lemma LowerAllCons(w: string, ws: seq<string>)
    ensures LowerAll([w] + ws) == [Lower(w)] + LowerAll(ws)
  {
  }

  /** Lower-casing commutes with splitting into word runs. */
  lemma {:induction false} WordRunsOfLower(s: string)
    ensures WordRuns(Lower(s)) == LowerAll(WordRuns(s))
    decreases |s|
  {
    var low := Lower(s);
    if s == [] {
    } else if !IsWordChar(s[0]) {
      assert !IsWordChar(low[0]);
      assert low[1..] == Lower(s[1..]);
      WordRunsOfLower(s[1..]);
    } else {
      var k := RunLength(s);
      var head := s[..k];
      var tail := s[k..];
      RunLengthLower(s);
      assert IsWordChar(low[0]);
      assert low[..k] == Lower(head);
      assert low[k..] == Lower(tail);
      assert WordRuns(low) == [Lower(head)] + WordRuns(Lower(tail));
      assert WordRuns(s) == [head] + WordRuns(tail);
      WordRunsOfLower(tail);
      LowerAllCons(head, WordRuns(tail));
    }
  }

  /**
   * The query is length-filtered before lower-casing, titles after; on ASCII
   * both orders give the same token set.
   */
  lemma QueryTokensAgreeWithTokens(q: string)
    ensures QueryTokens(q) == Tokens(q)
  {
    WordRunsOfLower(q);
    var runs := WordRuns(q);
    var low := LowerAll(runs);
    forall w | w in QueryTokens(q)
      ensures w in Tokens(q)
    {
      var v :| v in runs && |v| > 2 && w == Lower(v);
      var i :| 0 <= i < |runs| && runs[i] == v;
      assert low[i] == w;
    }
    forall w | w in Tokens(q)
      ensures w in QueryTokens(q)
    {
      var i :| 0 <= i < |low| && low[i] == w;
      assert runs[i] in runs && Lower(runs[i]) == w;
    }
  }

  /**
   * Reference characterisation of the tokens: exactly the maximal stretches
   * of word characters of the lower-cased text that are longer than two.
   */
  lemma TokensCharacterised(s: string, w: string)
    ensures w in Tokens(s) <==> |w| > 2 && exists i, j :: IsMaximalRun(Lower(s), i, j) && Lower(s)[i..j] == w
  {
    WordRunsCharacterised(Lower(s), w);
  }

  /** The query's tokens obey the same characterisation. */
  lemma QueryTokensCharacterised(q: string, w: string)
    ensures w in QueryTokens(q) <==> |w| > 2 && exists i, j :: IsMaximalRun(Lower(q), i, j) && Lower(q)[i..j] == w
  {
    QueryTokensAgreeWithTokens(q);
    TokensCharacterised(q, w);
  }

  /** Text without three consecutive word characters yields no tokens. */
  lemma NoLongRunNoTokens(s: string)
    requires forall i :: 0 <= i && i + 2 < |s| ==> !(IsWordChar(s[i]) && IsWordChar(s[i + 1]) && IsWordChar(s[i + 2]))
    ensures QueryTokens(s) == {}
    ensures Tokens(s) == {}
  {
    forall w | w in WordRuns(s)
      ensures |w| <= 2
    {
      RunsAreMaximal(s, w);
      var i, j :| IsMaximalRun(s, i, j) && s[i..j] == w;
      assert i + 2 < |s| ==> !(IsWordChar(s[i]) && IsWordChar(s[i + 1]) && IsWordChar(s[i + 2]));
    }
    QueryTokensAgreeWithTokens(s);
  }

  // ---------------------------------------------------------------------------
  // Decimal digit strings

  function DigitValue(c: char): (d: nat)
    requires IsDigit(c)
    ensures d < 10
  {
    c as int - '0' as int
  }

  function DigitChar(d: nat): (c: char)
    requires d < 10
    ensures IsDigit(c) && DigitValue(c) == d
  {
    ('0' as int + d) as char
  }

  /** Length of the longest prefix of `s` made only of digits. */
  function DigitRunLength(s: string): (k: nat)
    ensures k <= |s|
    ensures AllDigits(s[..k])
    ensures k == |s| || !IsDigit(s[k])
  {
    if s == [] || !IsDigit(s[0]) then 0 else 1 + DigitRunLength(s[1..])
  }

  /** Any digit prefix that cannot be extended is the digit run. */
  lemma DigitRunLengthIsLongest(s: string, k: nat)
    requires k <= |s|
    requires AllDigits(s[..k])
    requires k == |s| || !IsDigit(s[k])
    ensures DigitRunLength(s) == k
  {
    assert forall i :: 0 <= i < k ==> IsDigit(s[..k][i]);
    DigitPrefixIsLongest(s, k);
  }

  lemma DigitPrefixIsLongest(s: string, k: nat)
    requires k <= |s|
    requires forall i :: 0 <= i < k ==> IsDigit(s[i])
    requires k == |s| || !IsDigit(s[k])
    ensures DigitRunLength(s) == k
  {
    var m := DigitRunLength(s);
    assert forall i :: 0 <= i < m ==> IsDigit(s[..m][i]);
  }

  /** Python's `int(s)` for a string of ASCII digits. */
  function DigitsValue(s: string): nat
    requires AllDigits(s)
  {
    if s == [] then 0 else 10 * DigitsValue(s[..|s| - 1]) + DigitValue(s[|s| - 1])
  }

  /** The decimal rendering of `n`, as Python's `str(n)` / f-string writes it. */
  function Decimal(n: nat): (s: string)
    ensures |s| > 0 && AllDigits(s)
  {
    if n < 10 then [DigitChar(n)] else Decimal(n / 10) + [DigitChar(n % 10)]
  }

  /** Reading back a rendered number gives the number. */
  lemma {:induction false} DecimalRoundTrip(n: nat)
    ensures DigitsValue(Decimal(n)) == n
  {
    if n >= 10 {
      DecimalRoundTrip(n / 10);
      var s := Decimal(n);
      assert s[..|s| - 1] == Decimal(n / 10);
    }
  }
}

=== FILE: video_list.dfy ===
/**
 * `getYoutubeId` of `frontend/src/components/VideoList.js`: a search for the
 * leftmost place where one of five URL markers is followed by eleven id
 * characters, returning those eleven characters.  The pattern has no end
 * anchor.  JavaScript's `\w` is ASCII-only, so `[\w-]` is [A-Za-z0-9_-].
 */
module VideoList {
  import opened Wrappers
  import opened Text

  /** The alternatives of the pattern, in the order the regex tries them. */
  const Markers: seq<string> := ["v=", "/embed/", "youtu.be/", "/v/", "/shorts/"]

  const IdLength: nat := 11

  /** The class `[\w-]`. */
  predicate IsIdChar(c: char) {
    IsWordChar(c) || c == '-'
  }

  predicate IsVideoId(id: string) {
    |id| == IdLength && forall i :: 0 <= i < |id| ==> IsIdChar(id[i])
  }

  /** `m` occurs in `s` at position `p`. */
  predicate OccursAt(s: string, p: nat, m: string) {
    p + |m| <= |s| && s[p..p + |m|] == m
  }

  /** Marker `m` occurs at `p` and is followed by eleven id characters. */
  predicate MarkerThenIdAt(s: string, p: nat, m: string) {
    OccursAt(s, p, m) && p + |m| + IdLength <= |s| && IsVideoId(s[p + |m|..p + |m| + IdLength])
  }

  /** Some marker of `markers` matches at `p`. */
  ghost predicate SomeMarkerAt(s: string, p: nat, markers: seq<string>) {
    exists m :: m in markers && MarkerThenIdAt(s, p, m)
  }

  /** The id that follows marker `m` at `p`. */
  function IdAfter(s: string, p: nat, m: string): string
    requires MarkerThenIdAt(s, p, m)
  {
    s[p + |m|..p + |m| + IdLength]
  }

  /** The first of `markers` that matches at `p`, as the id it captures. */
  function FirstMarkerMatch(s: string, p: nat, markers: seq<string>): (r: Option<string>)
    ensures r.Some? ==> IsVideoId(r.value)
  {
    if markers == [] then None
    else if MarkerThenIdAt(s, p, markers[0]) then Some(IdAfter(s, p, markers[0]))
    else FirstMarkerMatch(s, p, markers[1..])
  }

  /** The capture at `p` exists exactly when some marker matches there, and is that marker's id. */
  lemma {:induction false} FirstMarkerMatchCharacterised(s: string, p: nat, markers: seq<string>)
    ensures FirstMarkerMatch(s, p, markers).Some? <==> SomeMarkerAt(s, p, markers)
    ensures FirstMarkerMatch(s, p, markers).Some? ==>
              exists m :: m in markers && MarkerThenIdAt(s, p, m) && FirstMarkerMatch(s, p, markers).value == IdAfter(s, p, m)
  {
    if markers != [] {
      FirstMarkerMatchCharacterised(s, p, markers[1..]);
      if !MarkerThenIdAt(s, p, markers[0]) && SomeMarkerAt(s, p, markers) {
        var m :| m in markers && MarkerThenIdAt(s, p, m);
        assert m in markers[1..];
      }
    }
  }

  /** A match of the whole pattern starts at `p` and at no earlier position. */
  ghost predicate IsLeftmostMatch(s: string, p: nat, markers: seq<string>) {
    && p <= |s|
    && SomeMarkerAt(s, p, markers)
    && forall q :: 0 <= q < p ==> !SomeMarkerAt(s, q, markers)
  }

  /**
   * The scan from position `p` with the given alternatives: the capture at
   * the first position where one matches, or none.
   */
  function ScanFrom(s: string, p: nat, markers: seq<string>): (r: Option<string>)
    requires p <= |s| + 1
    ensures r.None? ==> forall q :: p <= q <= |s| ==> FirstMarkerMatch(s, q, markers).None?
    ensures r.Some? ==> exists q :: p <= q <= |s| && FirstMarkerMatch(s, q, markers) == r
                                   && forall q' :: p <= q' < q ==> FirstMarkerMatch(s, q', markers).None?
    decreases |s| + 1 - p
  {
    if p > |s| then None
    else
      var here := FirstMarkerMatch(s, p, markers);
      if here.Some? then here else ScanFrom(s, p + 1, markers)
  }

  /**
   * `getYoutubeId(url)`, with `null` as `None`: the eleven id characters
   * after the marker of the leftmost match, or `None` when nothing matches.
   */
  function GetYoutubeId(url: string): (r: Option<string>)
    ensures r.Some? ==> IsVideoId(r.value)
    ensures r.None? <==> forall p :: 0 <= p <= |url| ==> !SomeMarkerAt(url, p, Markers)
    ensures r.Some? ==> exists p, m :: IsLeftmostMatch(url, p, Markers) && m in Markers && MarkerThenIdAt(url, p, m)
                                       && r.value == IdAfter(url, p, m)
  {
    ScanMatchesSpec(url, Markers);
    ScanFrom(url, 0, Markers)
  }

  /** Scanning from the start finds the leftmost match. */
  lemma ScanMatchesSpec(url: string, markers: seq<string>)
    ensures var r := ScanFrom(url, 0, markers);
            && (r.None? <==> forall p :: 0 <= p <= |url| ==> !SomeMarkerAt(url, p, markers))
            && (r.Some? ==> exists p, m :: IsLeftmostMatch(url, p, markers) && m in markers && MarkerThenIdAt(url, p, m)
                                           && r.value == IdAfter(url, p, m))
  {
    var r := ScanFrom(url, 0, markers);
    forall p | 0 <= p <= |url|
      ensures FirstMarkerMatch(url, p, markers).None? <==> !SomeMarkerAt(url, p, markers)
    {
      FirstMarkerMatchCharacterised(url, p, markers);
    }
    if r.Some? {
      var p :| 0 <= p <= |url| && FirstMarkerMatch(url, p, markers) == r
               && forall q' :: 0 <= q' < p ==> FirstMarkerMatch(url, q', markers).None?;
      FirstMarkerMatchCharacterised(url, p, markers);
      assert IsLeftmostMatch(url, p, markers);
    }
  }

  /** No two markers can occur at the same position, so the capture is unambiguous. */
  lemma MarkersExclusive(s: string, p: nat, m1: string, m2: string)
    requires m1 in Markers && m2 in Markers
    requires OccursAt(s, p, m1) && OccursAt(s, p, m2)
    ensures m1 == m2
  {
    assert s[p..p + |m1|][0] == m1[0] && s[p..p + |m2|][0] == m2[0];
    assert |m1| >= 2 && |m2| >= 2;
    assert s[p..p + |m1|][1] == m1[1] && s[p..p + |m2|][1] == m2[1];
  }

  /** A URL in which no marker occurs yields `null`. */
  lemma NoMarkerNoId(url: string)
    requires forall p, m :: 0 <= p <= |url| && m in Markers ==> !OccursAt(url, p, m)
    ensures GetYoutubeId(url) == None
  {
  }

  /**
   * Only the first eleven id characters are captured, whatever follows them:
   * appending text after a match does not change the capture.
   */
  lemma CaptureIgnoresTail(s: string, p: nat, m: string, tail: string)
    requires m in Markers && MarkerThenIdAt(s, p, m)
    ensures FirstMarkerMatch(s + tail, p, Markers) == Some(IdAfter(s, p, m))
  {
    var t := s + tail;
    assert t[p..p + |m|] == s[p..p + |m|];
    assert t[p + |m|..p + |m| + IdLength] == s[p + |m|..p + |m| + IdLength];
    assert MarkerThenIdAt(t, p, m);
    FirstMarkerMatchCharacterised(t, p, Markers);
    var m' :| m' in Markers && MarkerThenIdAt(t, p, m') && FirstMarkerMatch(t, p, Markers).value == IdAfter(t, p, m');
    MarkersExclusive(t, p, m, m');
  }
}

=== FILE: videos.dfy ===
/**
 * The video record passed from retrieval to ranking and to the frontend.
 * Dictionary keys the code reads with a `''` default (or by truthiness) are
 * plain strings here, the empty string standing for a missing key.
 */
module Videos {
  import opened Wrappers

  /**
   * What a record's `publishedAt` amounts to once compared with the clock:
   * absent (missing or empty), unusable (parsing or the date arithmetic
   * raised), or a whole number of days since publication, possibly negative.
   */
  datatype PubDate = Absent | Unusable | AgeDays(days: int)

  datatype Video = Video(
    title: string,
    url: string,
    snippet: string,
    thumbnail: string,
    channelTitle: string,
    duration: Option<int>,
    publishedAt: PubDate,
    priority: Option<int>,
    score: Option<int>)

  /** `video.get('priority', 0)`. */
  function PriorityOf(v: Video): int {
    v.priority.GetOr(0)
  }
}

=== FILE: wrappers.dfy ===
/** `Option` and `Result` types shared by the whole model. */
module Wrappers {

  /** A value that may be absent: Python's `None` or a missing dictionary key. */
  datatype Option<+T> = None | Some(value: T) {

    /** The wrapped value, or `default` when absent (Python's `d.get(k, default)`). */
    function GetOr(default: T): T {
      match this
      case Some(v) => v
      case None => default
    }
  }

  /** Either a value or an error message. */
  datatype Result<+R, +E> = Success(value: R) | Failure(error: E)
}
